=== FILE: README.md ===
# miniGIF data layer in Dafny

miniGIF is a desktop GIF picker. Users keep categories of GIFs; each category has a list
of items, and each item points at a GIF asset by its `gifId`. The library lives in one
JSON data file: `{ categories, itemsData, gifs }`. Next to it sits a `gifs` directory
holding one `<gifId>.gif` file per asset.

This project models the data layer of the application. That covers:

- loading and saving the data file, and making backups of it;
- merging an imported library into the current one (`mergeData`);
- the structural check every imported document must pass (`validateImportedData`);
- building an export package: the selected categories, the `gifCount` the `export-data`
  handler reports, and the assets and `data.json` that `save-export-file` puts into the
  archive;
- importing a package (`importWithFiles`), and the `import-data` handler's choice between
  merge, replace and cancel;
- the asset directory: `getGifPath`, `saveGif`, `deleteGif` and the `copy-gif-file`
  handler.

The model has two layers:

- **JSON values** (`Js.Json`). An object is a list of entries in insertion order, and
  nothing stops a key from occurring twice; a property read takes the first entry with
  that name. Here the validator runs, with JavaScript's truthiness and `typeof` rules.
- **Typed snapshots** (`Data.Snapshot`). Here the merge and the export filters run. The
  typed objects (`Objects.Obj`) do have unique keys.

`Data.Decode` and `Data.Encode` connect the two layers. Decoding an encoded snapshot gives
it back.

The file system is a map from names to bytes (`Common.Dir`). Anything outside the data
layer becomes a parameter:

- `parse` stands for reading a file and `JSON.parse`; `None` means the parse threw;
- `stringify` stands for `JSON.stringify`;
- `fetch` stands for the HTTP download of `saveGif`;
- `local` is the file system that `file://` URLs point into;
- the button the user pressed is an integer.

Modules, in dependency order:

- `Common`: Option, Result, bytes, directories, and `Subsequence`, the order an
  `Array.prototype.filter` keeps.
- `Strings`: prefix and suffix tests, first occurrence, `String.prototype.replace` with a
  string pattern, and `ReplaceEach`, a global replacement of a set of characters.
- `Objects`: object entry lists, `Get`, `Put`, and `Assign`, the fold behind object spread.
- `Js`: JSON values, truthiness, `typeof`.
- `Data`: snapshot types, well-formedness, encoding and decoding.
- `Validation`: `validateImportedData`.
- `Merge`: `mergeData`.
- `Assets`: the gifs directory.
- `Store`: `loadData`, `saveData`, `createBackup`.
- `Export`: `exportSelectedData`, `export-data`, `save-export-file`.
- `Import`: `importWithFiles`, `import-data`.

## Model

| member | source | states |
|---|---|---|
| `Merge.MergeCategories` | build/miniGIF/dataManager.js:44-52 | The current categories stay first, in their order. Every appended category comes from the incoming list. Its id was not yet present, and the appended ids are pairwise distinct. The result's ids are the union of both id sets. |
| `Merge.MergeCategoriesReference` | build/miniGIF/dataManager.js:44-52 | The merged list equals an independent definition: the current list, followed by the first occurrence of each incoming id, leaving out ids the current list already has. |
| `Merge.FreshItems` | build/miniGIF/dataManager.js:61-62 | An incoming item survives exactly as many times as it occurs in the input when its gifId is not yet present, and never otherwise. Duplicates among the incoming items are therefore kept. The survivors keep their incoming order, and their gifIds are the incoming ones not yet present. |
| `Merge.MergeItemList` | build/miniGIF/dataManager.js:57-66 | For a new category id the list is the incoming one. For a known id the existing list stays in front; everything after it comes from the incoming list with a gifId the existing list lacks, and the gifIds afterwards are the union of both. |
| `Merge.MergeStepAsWritten` | build/miniGIF/dataManager.js:56-68 | The loop body as written has the same effect as storing the existing list followed by the fresh items. The body creates an empty list for a new id, filters, and appends only when something is fresh. |
| `Merge.MergeItemsData` | build/miniGIF/dataManager.js:55-69 | The keys are the union of both key sets. An id only current keeps its list. An id only incoming takes the incoming list whole. An id on both sides gets the current list followed by the incoming items with new gifIds. Current keys keep their positions. |
| `Merge.MergeGifs` | build/miniGIF/dataManager.js:74 | The keys are the union of both key sets. For an incoming key, the incoming value wins. Every other key keeps the current value. |
| `Merge.MergeGifsNoIncoming` | build/miniGIF/dataManager.js:74 | Spreading an empty incoming `gifs` after the current one leaves the current registry exactly as it was, order included. |
| `Merge.Merge` | build/miniGIF/dataManager.js:40-76 | The current categories are a prefix of the merged ones, and the merged ids are the union of both id sets. The item-list keys and the gif keys are the unions of both key sets. Every current item list is a prefix of its merged list, and every incoming gifId of a category is present in it afterwards. An incoming gif entry wins. |
| `Merge.MergeGrows` | build/miniGIF/dataManager.js:40-76 | A merge loses no category and shortens no current item list. |
| `Merge.MergeIdempotent` | build/miniGIF/dataManager.js:40-76 | Merging a library with itself returns it unchanged. |
| `Merge.MergeIntoEmpty` | build/miniGIF/dataManager.js:40-76 | Merging into the empty library reproduces the incoming library exactly when its category ids are distinct. |
| `Merge.MergeWithEmpty` | build/miniGIF/dataManager.js:40-76 | Importing the empty library changes nothing: no category, item or registry entry is added, and none is reordered. |
| `Merge.MergePreservesWellFormed` | build/miniGIF/dataManager.js:40-76 | Merging two libraries that pass the import check's field conditions gives a library that passes them too. |
| `Merge.MergeCategoriesSameId` | build/miniGIF/dataManager.js:46-50 | An incoming category whose id is already current is skipped, even when its other fields differ. |
| `Merge.MergeItemsScenario` | build/miniGIF/dataManager.js:55-68 | In a category on both sides, an incoming item whose gifId is already there is dropped, and one with a new gifId is appended. A category only the import has takes its items whole, even when a gifId also occurs elsewhere. |
| `Data.DecodeEncode` | build/miniGIF/dataManager.js:71-75 | Every snapshot of the shape `{ categories, itemsData, gifs }`, written as JSON, reads back as the same snapshot. |
| `Data.Encode` | build/miniGIF/dataManager.js:71-75 | The saved document is an object with three distinct keys. `categories` is an array whose entry at each index holds that category's id, name, key and color as strings under those property names. `itemsData` has the snapshot's category ids as keys, in order, each with an array whose items hold `code` and `gifId` under those names. `gifs` is the registry object as it is. |
| `Data.Decode` | build/miniGIF/dataManager.js:44-74 | A document reads as a snapshot only when `categories` is an array and `itemsData` an object. Then each category's id, name, key and color are the string properties of those names of the array entry at its index. The item-list keys are the document's keys, in order, and each item's code and gifId are its `code` and `gifId` properties. The registry is the `gifs` object, or empty when `gifs` is falsy. |
| `Data.DecodeSucceeds` | build/miniGIF/dataManager.js:44-74 | A document reads as a snapshot exactly when `categories` is an array of entries with string id, name, key and color; `itemsData` is an object whose values are arrays of entries with string code and gifId; and `gifs` is absent, falsy or an object. Property order and extra properties do not matter. |
| `Validation.CheckAll` | build/miniGIF/dataManager.js:134-146 | A `for ... of` check accepts a list iff every element is accepted. Otherwise it returns the verdict of an element that every earlier element passed, the one the loop stops at. |
| `Validation.FirstFailure` | build/miniGIF/dataManager.js:134-146 | Such a loop throws exactly when it reaches an element that throws before any element it rejects. |
| `Validation.CheckCategory` | build/miniGIF/dataManager.js:134-138 | A category throws exactly when it is `null`, and passes exactly when it is an object with truthy id, name, key and color. |
| `Validation.CheckItem` | build/miniGIF/dataManager.js:143-145 | An item throws exactly when it is `null`, and passes exactly when it is an object with truthy code and gifId. |
| `Validation.CheckItemList` | build/miniGIF/dataManager.js:142-145 | One `itemsData` value passes exactly when it is an array of acceptable items. It throws exactly when it is an array whose first failing item is `null`. |
| `Validation.CheckItemsData` | build/miniGIF/dataManager.js:141-146 | `itemsData` passes exactly when it is not `null` and every value it enumerates is an acceptable item list. It throws exactly when it is `null` or the first failing value throws. |
| `Validation.Validate` | build/miniGIF/dataManager.js:122-149 | Anything but a rejection needs the structure test: an object, an array of categories, an `itemsData` of type object, and `gifs` falsy or of type object. The check throws exactly when the structure holds and the categories loop throws first, or all categories pass and `itemsData` throws. |
| `Validation.ValidateAcceptsIff` | build/miniGIF/dataManager.js:122-149 | The check accepts a document exactly when these hold: it is an object; `categories` is an array; `itemsData` is a non-null object; `gifs` is falsy or an object; every category has truthy id, name, key and color; every `itemsData` value is an array of items with truthy code and gifId. |
| `Validation.ValidateDecoded` | build/miniGIF/dataManager.js:122-149 | On a document that reads as a snapshot, the check accepts exactly when every category field, item code and gifId is non-empty. |
| `Validation.ValidateEncoded` | build/miniGIF/dataManager.js:122-149 | A library saved as JSON passes the import check exactly when every category field, item code and gifId is non-empty. |
| `Validation.EmptyDocAccepted` | build/miniGIF/dataManager.js:122-149 | The empty library document is accepted. |
| `Validation.NullItemsDataThrows` | build/miniGIF/dataManager.js:128-141 | A `null` itemsData passes the `typeof` test. `Object.entries(null)` then throws. |
| `Validation.EmptyColorRejected` | build/miniGIF/dataManager.js:135-136 | A category with an empty color is rejected. |
| `Store.Load` | build/miniGIF/dataManager.js:192-202 | An absent or unparsable file yields the empty library. Otherwise the result is the parsed content. |
| `Store.Save` | build/miniGIF/dataManager.js:182-190 | After a save the data file exists. `Store.SaveLoad` states what it loads back as. |
| `Store.LoadFallback` | build/miniGIF/dataManager.js:192-202 | Whatever the file holds, loading gives either its parsed content or a document that passes the import check and reads as the empty snapshot. |
| `Store.SaveLoad` | build/miniGIF/dataManager.js:182-202 | Data that is saved loads back unchanged whenever parsing undoes stringifying. |
| `Store.Stamp` | build/miniGIF/dataManager.js:206 | The stamp has the timestamp's length. Every `:` and `.` becomes `-`, and every other character is kept. |
| `Store.BackupName` | build/miniGIF/dataManager.js:206-207 | A backup name is `backup_`, then the stamp of the timestamp, then `.json`. |
| `Store.BackupNameOneDot` | build/miniGIF/dataManager.js:206-207 | In a backup file name, the only `.` is the one before `json`. |
| `Store.CreateBackup` | build/miniGIF/dataManager.js:204-215 | The backup is named after the timestamp and holds the data as loading returns it; with no data file, that is the empty library. |
| `Store.BackupRestores` | build/miniGIF/dataManager.js:204-215 | A backup file loads back as the data that was loaded when the backup was made. |
| `Assets.GifPath` | build/miniGIF/dataManager.js:217-219 | An asset name is the id followed by `.gif`: it starts with the id, ends in `.gif`, and is four characters longer. |
| `Assets.StripGifPath` | build/miniGIF/dataManager.js:170 | `path.basename(name, '.gif')` recovers the id an asset name was made from. |
| `Assets.GifPathStrip` | build/miniGIF/dataManager.js:168-171 | Every file name ending in `.gif` is the asset name of its stripped id. |
| `Assets.GifPathInjective` | build/miniGIF/dataManager.js:217-219 | Two ids have the same asset name exactly when they are equal. Ids are plain file names here (see Left out). |
| `Assets.SaveGif` | build/miniGIF/dataManager.js:221-245 | An `http` URL stores the fetched bytes as the asset and resolves true; a failed download resolves false. A `file://` URL of an existing file stores its bytes and resolves true; of a missing file it rejects. Any other URL resolves false. Anything short of success leaves the directory unchanged, and no asset other than the id's own is touched. |
| `Assets.SaveGifLocal` | build/miniGIF/dataManager.js:236-240 | A `file://` URL of an existing file stores that file's bytes as the asset and resolves true. |
| `Assets.SaveGifOther` | build/miniGIF/dataManager.js:241-243 | Every `data:` URL resolves false and writes nothing. |
| `Assets.DeleteGif` | build/miniGIF/dataManager.js:247-258 | Afterwards the asset is gone and every other file is unchanged. The call reports success whether or not the asset existed. |
| `Assets.DeleteGifIdempotent` | build/miniGIF/dataManager.js:247-258 | Deleting twice is the same as deleting once. |
| `Assets.CopyGif` | main.js:332-345 | The handler returns true exactly when the source asset exists. The target asset then holds the source's bytes. Otherwise nothing changes. Only the target asset is ever touched. |
| `Assets.CopyGifSelf` | main.js:332-345 | Copying an asset onto itself leaves the directory unchanged. |
| `Export.SelectCategories` | build/miniGIF/dataManager.js:82 | A category is kept exactly when it is in the input and its id is selected. |
| `Export.SelectCategoriesCounts` | build/miniGIF/dataManager.js:82 | A selected category occurs as often as in the input. No other category occurs. |
| `Export.SelectCategoriesOrdered` | build/miniGIF/dataManager.js:82 | The kept categories appear in their original order. |
| `Export.SelectCategoriesIdempotent` | build/miniGIF/dataManager.js:82 | Filtering twice by the same selection is the same as filtering once. |
| `Export.SelectItems` | build/miniGIF/dataManager.js:88-96 | The exported item-list keys are the selected ids that the library has. Each one holds the library's list unchanged. |
| `Export.ExportSelected` | build/miniGIF/dataManager.js:78-107 | The manifest has the filtered categories and item lists and an empty `gifs`. The package holds an asset exactly when the file exists and one of the exported items refers to it. Each asset's bytes are unchanged. |
| `Export.ExportSelectedWellFormed` | build/miniGIF/dataManager.js:78-96 | Exporting from a well-formed library gives a well-formed manifest. |
| `Export.GifCount` | main.js:351 | The count is 0 for no categories and the list's length for one. It is at least the length of every item list. |
| `Export.GifCountAppend` | main.js:351 | The count adds up across a split of the categories. |
| `Export.GifCountBoundsIds` | main.js:351 | The count is of items, so it bounds the number of distinct gifIds. |
| `Export.GifCountCountsItems` | main.js:351 | Two items sharing one GIF count as 2, although they name only one gifId. |
| `Export.ExportIds` | main.js:363-371 | The collected ids are all gifIds of the export data except the empty (falsy) one. |
| `Export.PackageFilesAsWritten` | main.js:373-387 | As written, a directory file is packaged exactly when it ends in `.gif` and removing its first `.gif` gives a collected id. The file's bytes are unchanged. |
| `Export.PackageFilesExact` | main.js:373-387 | The corrected selection packages exactly the existing assets of the collected ids. |
| `Export.PackageFilesAgree` | main.js:376-386 | When no `.gif` file name contains an earlier `.gif`, the as-written and corrected selections coincide. |
| `Export.InnerGifAssetDropped` | main.js:378 | For the gifId `a.gifb`, the corrected selection packages `a.gifb.gif` and the as-written one does not. The as-written one packages that file for the unrelated gifId `ab.gif`. |
| `Export.SaveExportFile` | main.js:355-393 | `data.json` holds the export data exactly as given. With no gifs directory, the package holds nothing else. Otherwise the package holds the existing assets of the collected ids, each with its bytes unchanged, and no other file. |
| `Import.CopyAssets` | build/miniGIF/dataManager.js:168-173 | Every `.gif` file of the package overwrites the asset of its stripped id, which has the file's own name. Other assets are unchanged. No other file appears. |
| `Import.ImportWithFiles` | build/miniGIF/dataManager.js:150-180 | It fails for these reasons: a missing `data.json`, a parse error, a rejected document, or a validator that throws. Every failure leaves the gifs directory untouched. Success returns the parsed document, which the check accepted, and copies the assets. |
| `Import.ImportedIsTruthy` | main.js:453-454 | A successful import returns a truthy value, so the handler's `!importedData` test never fires after one. |
| `Import.MergeDocs` | build/miniGIF/dataManager.js:40-76 | When both documents read as snapshots, the merged document reads back as their merge. |
| `Import.ImportData` | main.js:453-481 | The gifs directory is whatever the import left. A `null` answer leaves the data file alone. A non-null answer is what gets saved, and it requires a successful import and a button other than cancel. Replace answers with the imported document. |
| `Import.ImportFailureChangesNothing` | main.js:453-485 | A failed import answers `null` and changes neither the data file nor the assets. |
| `Import.CancelKeepsDataFile` | main.js:456-464 | Cancel answers `null` and keeps the data file. The assets of the package have already been copied. |
| `Import.ImportDataMerges` | main.js:466-468 | Merge answers with the merge of the loaded document and the imported one. |
| `Import.MergeStrategySaves` | main.js:466-474 | Merge saves the merge of the current and imported snapshots, which keeps every current category in front. When the current library is well formed, what is saved passes the import check again. |
| `Import.MergedAccepted` | build/miniGIF/dataManager.js:122-149 | The merge of two well-formed libraries, written out, passes the import check. |
| `Import.ExportImportRoundTrip` | main.js:363-393 | With the corrected file selection, an exported package of a well-formed library imports back. The manifest is accepted exactly as written, and every exported asset lands under its own name with its own bytes. `Export.PackageFilesAgree` carries this over to the selection as written when no asset name holds an inner `.gif`. |

## Left out

- Dialogs, windows, IPC broadcasts (`data-updated`), temporary directories and their
  removal: these are user-interface plumbing with no data-layer logic.
- Zip archiving and extraction: the package is modelled as the directory that would be
  archived or was extracted. The archive's `true`/`false` outcome is not modelled.
- `exportWithFiles`, `gifUpdater.js`, the Electron entry point under `build/miniGIF/main.js`
  and the root `main.js` handlers other than the ones listed above: they are not part of
  this model.
- I/O failures: write errors (`saveData` and `createBackup` returning false, `deleteGif`
  returning false, `copy-gif-file` catching a copy error) and a copy failing halfway through
  the import loop are not modelled. Every file operation succeeds.
- `JSON.stringify` pretty-printing and `JSON.parse` are the parameters `stringify` and
  `parse`. `Store.SaveLoad` and `Store.BackupRestores` assume that parsing undoes
  stringifying.
- The HTTP download in `saveGif` is the parameter `fetch`; axios semantics are not modelled.
- The timestamp of `createBackup` is the parameter `iso`; only the `/[:.]/g` replacement
  is modelled.
- `loadData()` inside `mergeData` is the parameter `current` of `Merge.Merge`.
- JavaScript enumerates integer-like object keys first, in ascending order. The model
  keeps every key in insertion order.
- Property reads on prototype names such as `constructor` are not modelled.
- `Import.MergeDocs`: a document that does not read as a typed snapshot is treated as if
  `mergeData` threw. `Data.DecodeSucceeds` says exactly which documents read as one. The
  others include non-string ids or codes, an array-shaped `itemsData` or `gifs`, and item
  lists with non-object entries. The source would merge some of them anyway. This is
  weaker than the source.
- `Import.ImportData`: for such documents it answers `null` without saving under merge,
  inheriting the `Import.MergeDocs` restriction. This is weaker than the source.
- `Export.ExportSelected` and `Export.SaveExportFile` take typed snapshots. Export data
  the renderer sends that is not snapshot-shaped is outside the model, and so is
  `items.length` on a non-array.
- `Export.SaveExportFile` uses the corrected file selection (see Findings). The line as
  written is `Export.PackageFilesAsWritten`.
- `fs.existsSync(GIFS_DIR)` is modelled as the gifs directory being `None`.
- `Import.ExportImportRoundTrip` is proved for the corrected file selection only. As
  written, the exporter leaves out the asset of a gifId that contains `.gif` (see Findings).
- `Import.MergeDocs` goes through typed snapshots, which keep only a category's id, name,
  key and color and an item's code and gifId. Extra properties of an imported or current
  category or item (an `icon`, say) are dropped, and the written fields come out in that
  fixed order. The source keeps the objects whole. This is weaker than the source.
- `Import.ImportData` under merge inherits the same loss of extra category and item
  properties. This is weaker than the source.
- `Import.MergeStrategySaves` states the saved document through the same typed merge, so
  it too says nothing about extra category and item properties.
- `Assets.GifPath` treats an id as a plain file name. `path.join` would normalise an id
  such as `a/../b`, and one containing `/` would name a file in a subdirectory.
- `Assets.GifPathInjective` holds for plain file names on a case-sensitive file system
  only. With `path.join` normalisation, `a/../b` and `b` share an asset name. On the
  case-insensitive file systems Windows and macOS use by default, `A` and `a` share one.
- `Assets.DeleteGif` and `Assets.CopyGif` leave every other name unchanged in the flat
  map of names. Under `path.join` normalisation or case folding, names are not
  independent in that way: deleting `a.gif` also removes what the app calls `A.gif`.
- `Assets.SaveGif` has the same flat-map frame as `Assets.DeleteGif`, with the same
  exceptions for normalisation and case folding.
- `Import.CopyAssets` treats package files and assets as distinct names. On a
  case-insensitive file system, files whose names differ only in case overwrite one
  another's asset.
- Repeated keys: `JSON.parse` keeps the last value of a key that occurs twice, while a
  property read in the model takes the first entry. The model's `parse` may return such
  objects, and on them the model and the source read different values.
- Each handler is modelled as one atomic step on the data file and the gifs directory.
  `import-data` awaits the strategy dialog before `mergeData` reads the data file, and the
  model reads it once. Writes by other handlers in between are not modelled.

## Findings

| source | as written | input that shows it | evidently intended | confidence | as-written member | corrected member |
|---|---|---|---|---|---|---|
| main.js:378 | `file.replace('.gif', '')` removes the first `.gif` of a file name, not its suffix | The gifId `a.gifb` has the asset `a.gifb.gif`. Removing the first `.gif` gives `ab.gif`, so the asset is left out of the package. An unrelated gifId `ab.gif` would take it instead. | Strip the `.gif` suffix, as the import does with `path.basename(file, '.gif')` (build/miniGIF/dataManager.js:170) | not executed | `Export.PackageFilesAsWritten`, shown by `Export.InnerGifAssetDropped` | `Export.PackageFiles`, proved exact by `Export.PackageFilesExact` |

=== FILE: assets.dfy ===
/** The GIF asset directory: one file `<gifId>.gif` per GIF, and the operations that
    put files into it or take them out. */
module Assets {
  import opened Common
  import opened Strings

  const Suffix: string := ".gif"

  /** `getGifPath(gifId)`: the file name of a GIF's asset inside the gifs directory. */
  function GifPath(id: string): (f: string)
    ensures EndsWith(f, Suffix) && |f| == |id| + 4
    ensures f[..|id|] == id
  {
    id + Suffix
  }

  /** `path.basename(file, '.gif')` for a directory entry name ending in `.gif`: the
      suffix is stripped (a name that is exactly `.gif` gives the empty id). */
  function StripGif(f: string): (id: string)
    requires EndsWith(f, Suffix)
    ensures |id| + 4 == |f|
    ensures f == id + Suffix
  {
    f[..|f| - 4]
  }

  /** Stripping the suffix recovers the id an asset name was made from. */
  lemma StripGifPath(id: string)
    ensures StripGif(GifPath(id)) == id
  {
    assert GifPath(id)[..|id|] == id;
  }

  /** Every `.gif` name is the asset name of its stripped id. */
  lemma GifPathStrip(f: string)
    requires EndsWith(f, Suffix)
    ensures GifPath(StripGif(f)) == f
  {
    assert f == f[..|f| - 4] + f[|f| - 4..];
  }

  /** Distinct ids have distinct asset files. */
  lemma GifPathInjective(a: string, b: string)
    ensures GifPath(a) == GifPath(b) <==> a == b
  {
    if GifPath(a) == GifPath(b) {
      StripGifPath(a);
      StripGifPath(b);
    }
  }

  /** `deleteGif(gifId)`: removes the asset if there is one; always reports success. */
  function DeleteGif(gifs: Dir, id: string): (r: (Dir, bool))
    ensures r.1
    ensures GifPath(id) !in r.0
    ensures forall f | f != GifPath(id) :: (f in r.0 <==> f in gifs) && (f in gifs ==> r.0[f] == gifs[f])
  {
    (gifs - {GifPath(id)}, true)
  }

  /** Deleting twice is deleting once. */
  lemma DeleteGifIdempotent(gifs: Dir, id: string)
    ensures DeleteGif(DeleteGif(gifs, id).0, id) == DeleteGif(gifs, id)
  {
    var once := DeleteGif(gifs, id).0;
    assert once - {GifPath(id)} == once;
  }

  /** The `copy-gif-file` handler: copies the asset of `from` over the asset of `to`,
      and reports whether the source asset existed. */
  function CopyGif(gifs: Dir, from: string, to: string): (r: (Dir, bool))
    ensures r.1 <==> GifPath(from) in gifs
    ensures r.1 ==> GifPath(to) in r.0 && r.0[GifPath(to)] == gifs[GifPath(from)]
    ensures !r.1 ==> r.0 == gifs
    ensures forall f | f != GifPath(to) :: (f in r.0 <==> f in gifs) && (f in gifs ==> r.0[f] == gifs[f])
  {
    if GifPath(from) in gifs then (gifs[GifPath(to) := gifs[GifPath(from)]], true)
    else (gifs, false)
  }

  /** Copying an asset onto itself changes nothing. */
  lemma CopyGifSelf(gifs: Dir, id: string)
    ensures CopyGif(gifs, id, id).0 == gifs
  {
  }

  /** How the promise of `saveGif` settles. */
  datatype Settled = Resolved(gifs: Dir, ok: bool) | Rejected(gifs: Dir)

  /** `saveGif(gifId, url)`: an `http…` URL is downloaded (`fetch` stands for the HTTP
      GET; `None` is a failed download), a `file://` URL names a local file that is
      copied (`local` stands for the file system), anything else is refused. A missing
      local file makes the copy throw inside the promise, so the promise rejects. */
  function SaveGif(gifs: Dir, id: string, url: string, fetch: string -> Option<Bytes>, local: Dir): (r: Settled)
    ensures r.Resolved? && r.ok ==> GifPath(id) in r.gifs
    ensures r.Resolved? && r.ok ==> StartsWith(url, "http") || StartsWith(url, "file://")
    ensures r.Rejected? <==> !StartsWith(url, "http") && StartsWith(url, "file://") && url[7..] !in local
    ensures StartsWith(url, "http") && fetch(url).Some? ==>
      r.Resolved? && r.ok && r.gifs[GifPath(id)] == fetch(url).value
    ensures StartsWith(url, "http") && fetch(url).None? ==> r == Resolved(gifs, false)
    ensures !StartsWith(url, "http") && StartsWith(url, "file://") && url[7..] in local ==>
      r.Resolved? && r.ok && r.gifs[GifPath(id)] == local[url[7..]]
    ensures !StartsWith(url, "http") && !StartsWith(url, "file://") ==> r == Resolved(gifs, false)
    ensures !(r.Resolved? && r.ok) ==> r.gifs == gifs
    ensures forall f | f != GifPath(id) :: (f in r.gifs <==> f in gifs) && (f in gifs ==> r.gifs[f] == gifs[f])
  {
    if StartsWith(url, "http") then
      match fetch(url)
      case Some(data) => Resolved(gifs[GifPath(id) := data], true)
      case None => Resolved(gifs, false)
    else if StartsWith(url, "file://") then
      var source := url[7..];
      if source in local then Resolved(gifs[GifPath(id) := local[source]], true)
      else Rejected(gifs)
    else Resolved(gifs, false)
  }

  /** A `file://` URL of an existing file stores exactly that file's bytes. */
  lemma SaveGifLocal(gifs: Dir, id: string, path: string, fetch: string -> Option<Bytes>, local: Dir)
    requires path in local
    ensures SaveGif(gifs, id, "file://" + path, fetch, local) == Resolved(gifs[GifPath(id) := local[path]], true)
  {
    var url := "file://" + path;
    assert url[..7] == "file://";
    assert url[..4] == "file";
    assert !StartsWith(url, "http") by {
      assert url[0] == 'f';
    }
    assert url[7..] == path;
  }

  /** A `data:` URL, as a renderer may hand over for a pasted image, is neither fetched
      nor copied: the directory is left alone and the promise resolves to false. */
  lemma SaveGifOther(gifs: Dir, id: string, url: string, fetch: string -> Option<Bytes>, local: Dir)
    requires StartsWith(url, "data:")
    ensures SaveGif(gifs, id, url, fetch, local) == Resolved(gifs, false)
  {
    assert url[0] == 'd';
  }
}

=== FILE: common.dfy ===
/** Shared vocabulary: optional values, results with an error, raw file bytes, and
    order-preserving selection from a list. */
module Common {

  /** `None` stands for JavaScript's `undefined`: a missing property or key. */
  datatype Option<+T> = None | Some(value: T)

  /** The outcome of an operation that may throw. */
  datatype Result<+T, +E> = Ok(value: T) | Err(error: E)

  newtype byte = b: int | 0 <= b < 256

  /** The contents of a file. */
  type Bytes = seq<byte>

  /** A directory: file name to contents. */
  type Dir = map<string, Bytes>

  /** `r` lists elements of `s` in the order they appear there, as `Array.prototype.filter`
      leaves them. */
  predicate Subsequence<T(==)>(r: seq<T>, s: seq<T>)
    decreases |s|
  {
    if r == [] then true
    else if s == [] then false
    else (r[0] == s[0] && Subsequence(r[1..], s[1..])) || Subsequence(r, s[1..])
  }
}

=== FILE: data.dfy ===
/** The library snapshot: categories, the items of each category and the GIF registry,
    with its JSON form. */
module Data {
  import opened Common
  import opened Objects
  import opened Js

  /** A user category; its identity is `id`. */
  datatype Category = Category(id: string, name: string, key: string, color: string)

  /** An item of a category: the text a shortcut types and the GIF it shows. */
  datatype Item = Item(code: string, gifId: string)

  /** The aggregate root: `itemsData` maps a category id to its items in display order,
      `gifs` maps a gifId to metadata the data layer never looks into. */
  datatype Snapshot = Snapshot(categories: seq<Category>, itemsData: Obj<seq<Item>>, gifs: Obj<Json>)

  const Empty: Snapshot := Snapshot([], [], [])

  /** `{ categories: [], itemsData: {}, gifs: {} }` */
  const EmptyDoc: Json := JObj([("categories", JArr([])), ("itemsData", JObj([])), ("gifs", JObj([]))])

  /** The ids of a list of categories. */
  function Ids(cs: seq<Category>): set<string> {
    set c | c in cs :: c.id
  }

  /** The gifIds of a list of items. */
  function GifIds(items: seq<Item>): set<string> {
    set it | it in items :: it.gifId
  }

  predicate CategoryOk(c: Category) {
    c.id != "" && c.name != "" && c.key != "" && c.color != ""
  }

  predicate ItemOk(it: Item) {
    it.code != "" && it.gifId != ""
  }

  predicate ItemsOk(items: seq<Item>) {
    forall it | it in items :: ItemOk(it)
  }

  /** Every required field is a non-empty string. */
  predicate WellFormed(s: Snapshot) {
    && (forall c | c in s.categories :: CategoryOk(c))
    && (forall i | 0 <= i < |s.itemsData| :: ItemsOk(s.itemsData[i].1))
  }

  // ----- Which JSON property carries which field -----

  /** `j` holds the category's four fields as strings under the properties of the same
      names. */
  predicate CategoryIn(j: Json, c: Category) {
    && StrProp(j, "id") == Some(c.id)
    && StrProp(j, "name") == Some(c.name)
    && StrProp(j, "key") == Some(c.key)
    && StrProp(j, "color") == Some(c.color)
  }

  /** `j` holds the item's `code` and `gifId` as strings under those names. */
  predicate ItemIn(j: Json, it: Item) {
    StrProp(j, "code") == Some(it.code) && StrProp(j, "gifId") == Some(it.gifId)
  }

  predicate CategoriesIn(js: seq<Json>, cs: seq<Category>) {
    |js| == |cs| && forall i | 0 <= i < |js| :: CategoryIn(js[i], cs[i])
  }

  predicate ItemsIn(js: seq<Json>, items: seq<Item>) {
    |js| == |items| && forall i | 0 <= i < |js| :: ItemIn(js[i], items[i])
  }

  /** The `itemsData` object holds, key by key and in the same order, an array carrying
      each item list. */
  predicate ItemsDataIn(fs: seq<(string, Json)>, e: Entries<seq<Item>>) {
    && |fs| == |e|
    && forall i | 0 <= i < |fs| :: fs[i].0 == e[i].0 && fs[i].1.JArr? && ItemsIn(fs[i].1.elems, e[i].1)
  }

  // ----- Encoding -----

  function EncodeCategory(c: Category): (j: Json)
    ensures CategoryIn(j, c)
  {
    var f := [("id", JStr(c.id)), ("name", JStr(c.name)), ("key", JStr(c.key)), ("color", JStr(c.color))];
    assert f[1..] == [("name", JStr(c.name)), ("key", JStr(c.key)), ("color", JStr(c.color))];
    assert f[1..][1..] == [("key", JStr(c.key)), ("color", JStr(c.color))];
    assert f[1..][1..][1..] == [("color", JStr(c.color))];
    assert "id" != "name" && "id" != "key" && "id" != "color";
    assert "name" != "key" && "name" != "color" && "key" != "color";
    assert Get(f, "name") == Get(f[1..], "name") == Some(JStr(c.name));
    assert Get(f, "key") == Get(f[1..], "key") == Get(f[1..][1..], "key") == Some(JStr(c.key));
    assert Get(f, "color") == Get(f[1..], "color") == Get(f[1..][1..], "color")
        == Get(f[1..][1..][1..], "color") == Some(JStr(c.color));
    JObj(f)
  }

  function EncodeCategories(cs: seq<Category>): (js: seq<Json>)
    ensures CategoriesIn(js, cs)
  {
    if cs == [] then [] else [EncodeCategory(cs[0])] + EncodeCategories(cs[1..])
  }

  function EncodeItem(it: Item): (j: Json)
    ensures ItemIn(j, it)
  {
    var f := [("code", JStr(it.code)), ("gifId", JStr(it.gifId))];
    assert f[1..] == [("gifId", JStr(it.gifId))];
    assert "code" != "gifId";
    assert Get(f, "gifId") == Get(f[1..], "gifId") == Some(JStr(it.gifId));
    JObj(f)
  }

  function EncodeItems(items: seq<Item>): (js: seq<Json>)
    ensures ItemsIn(js, items)
  {
    if items == [] then [] else [EncodeItem(items[0])] + EncodeItems(items[1..])
  }

  function EncodeItemsData(e: Entries<seq<Item>>): (fs: seq<(string, Json)>)
    ensures |fs| == |e| && forall i | 0 <= i < |e| :: fs[i].0 == e[i].0
    ensures ItemsDataIn(fs, e)
  {
    if e == [] then [] else [(e[0].0, JArr(EncodeItems(e[0].1)))] + EncodeItemsData(e[1..])
  }

  /** The JSON document a snapshot is saved as. */
  function Encode(s: Snapshot): (j: Json)
    ensures j.JObj? && |j.fields| == 3 && UniqueKeys(j.fields)
    ensures IsArray(Prop(j, "categories")) && |Prop(j, "categories").value.elems| == |s.categories|
    ensures CategoriesIn(Prop(j, "categories").value.elems, s.categories)
    ensures Prop(j, "itemsData").Some? && Prop(j, "itemsData").value.JObj?
    ensures Keys(Prop(j, "itemsData").value.fields) == Keys(s.itemsData)
    ensures ItemsDataIn(Prop(j, "itemsData").value.fields, s.itemsData)
    ensures Prop(j, "gifs") == Some(JObj(s.gifs))
  {
    var cs := JArr(EncodeCategories(s.categories));
    var fs := EncodeItemsData(s.itemsData);
    DocProps(cs, JObj(fs), JObj(s.gifs));
    EncodedKeys(s.itemsData);
    Doc(cs, JObj(fs), JObj(s.gifs))
  }

  /** Encoding the item lists keeps their keys. */
  lemma EncodedKeys(e: Entries<seq<Item>>)
    ensures Keys(EncodeItemsData(e)) == Keys(e)
  {
    var fs := EncodeItemsData(e);
    assert forall k | k in Keys(fs) :: exists i | 0 <= i < |fs| :: k == fs[i].0;
    assert forall i | 0 <= i < |e| :: e[i].0 in Keys(fs);
  }

  /** `{ categories, itemsData, gifs }` */
  function Doc(categories: Json, itemsData: Json, gifs: Json): Json {
    JObj([("categories", categories), ("itemsData", itemsData), ("gifs", gifs)])
  }

  /** Each of the three properties of such a document reads back. */
  lemma DocProps(categories: Json, itemsData: Json, gifs: Json)
    ensures var d := Doc(categories, itemsData, gifs);
      && UniqueKeys(d.fields)
      && Prop(d, "categories") == Some(categories)
      && Prop(d, "itemsData") == Some(itemsData)
      && Prop(d, "gifs") == Some(gifs)
  {
    var d := Doc(categories, itemsData, gifs);
    assert d.fields[1..] == [("itemsData", itemsData), ("gifs", gifs)];
    assert d.fields[1..][1..] == [("gifs", gifs)];
    assert "categories" != "itemsData" && "categories" != "gifs" && "itemsData" != "gifs";
    assert Prop(d, "itemsData") == Get(d.fields[1..], "itemsData");
    assert Prop(d, "gifs") == Get(d.fields[1..], "gifs") == Get(d.fields[1..][1..], "gifs");
  }

  /** A property that holds a string. */
  function StrProp(j: Json, name: string): Option<string> {
    match Prop(j, name)
    case Some(JStr(x)) => Some(x)
    case _ => None
  }

  function DecodeCategory(j: Json): (r: Option<Category>)
    ensures forall c :: r == Some(c) <==> CategoryIn(j, c)
    ensures r.Some? <==> HasCategoryFields(j)
  {
    match (StrProp(j, "id"), StrProp(j, "name"), StrProp(j, "key"), StrProp(j, "color"))
    case (Some(id), Some(name), Some(key), Some(color)) => Some(Category(id, name, key, color))
    case _ => None
  }

  function DecodeItem(j: Json): (r: Option<Item>)
    ensures forall it :: r == Some(it) <==> ItemIn(j, it)
    ensures r.Some? <==> HasItemFields(j)
  {
    match (StrProp(j, "code"), StrProp(j, "gifId"))
    case (Some(code), Some(gifId)) => Some(Item(code, gifId))
    case _ => None
  }

  function DecodeCategories(js: seq<Json>): (r: Option<seq<Category>>)
    ensures r.Some? ==> CategoriesIn(js, r.value)
  {
    if js == [] then Some([])
    else match (DecodeCategory(js[0]), DecodeCategories(js[1..]))
      case (Some(c), Some(cs)) => Some([c] + cs)
      case _ => None
  }

  function DecodeItems(js: seq<Json>): (r: Option<seq<Item>>)
    ensures r.Some? ==> ItemsIn(js, r.value)
  {
    if js == [] then Some([])
    else match (DecodeItem(js[0]), DecodeItems(js[1..]))
      case (Some(it), Some(items)) => Some([it] + items)
      case _ => None
  }

  function DecodeItemLists(fs: seq<(string, Json)>): (r: Option<Entries<seq<Item>>>)
    ensures r.Some? ==> |r.value| == |fs| && forall i | 0 <= i < |fs| :: r.value[i].0 == fs[i].0
    ensures r.Some? ==> ItemsDataIn(fs, r.value)
  {
    if fs == [] then Some([])
    else match (fs[0].1, DecodeItemLists(fs[1..]))
      case (JArr(js), Some(rest)) =>
        (match DecodeItems(js)
         case Some(items) => Some([(fs[0].0, items)] + rest)
         case None => None)
      case _ => None
  }

  function DecodeItemsData(fs: seq<(string, Json)>): (r: Option<Obj<seq<Item>>>)
    ensures r.Some? <==> UniqueKeys(fs) && DecodeItemLists(fs).Some?
    ensures r.Some? ==> UniqueKeys(fs) && ItemsDataIn(fs, r.value)
  {
    if !UniqueKeys(fs) then None
    else match DecodeItemLists(fs)
      case Some(e) =>
        assert UniqueKeys(e) by {
          forall i, j | 0 <= i < j < |e| ensures e[i].0 != e[j].0 {
            assert e[i].0 == fs[i].0 && e[j].0 == fs[j].0;
          }
        }
        Some(e)
      case None => None
  }

  /** `gifs` may be absent or falsy (spreading it adds nothing) or an object. */
  function DecodeGifs(g: Option<Json>): (r: Option<Obj<Json>>)
    ensures r.Some? <==> GifsShaped(g)
  {
    match g
    case None => Some([])
    case Some(v) =>
      if !Truthy(v) then Some([])
      else if v.JObj? && UniqueKeys(v.fields) then Some(v.fields)
      else None
  }

  /** Reads a snapshot out of a parsed document. Documents whose required fields are not
      strings, or whose `itemsData` or `gifs` is an array, are outside this typed model. */
  function Decode(j: Json): (r: Option<Snapshot>)
    ensures r.Some? ==> IsArray(Prop(j, "categories")) && |r.value.categories| == |Prop(j, "categories").value.elems|
    ensures r.Some? ==> CategoriesIn(Prop(j, "categories").value.elems, r.value.categories)
    ensures r.Some? ==> Prop(j, "itemsData").Some? && Prop(j, "itemsData").value.JObj?
    ensures r.Some? ==> Keys(r.value.itemsData) == Keys(Prop(j, "itemsData").value.fields)
    ensures r.Some? ==> ItemsDataIn(Prop(j, "itemsData").value.fields, r.value.itemsData)
    ensures r.Some? && TruthyProp(Prop(j, "gifs")) ==> Prop(j, "gifs") == Some(JObj(r.value.gifs))
    ensures r.Some? && !TruthyProp(Prop(j, "gifs")) ==> r.value.gifs == []
  {
    var cats := Prop(j, "categories");
    var items := Prop(j, "itemsData");
    if !(cats.Some? && cats.value.JArr? && items.Some? && items.value.JObj?) then None
    else
      var cs := DecodeCategories(cats.value.elems);
      var e := DecodeItemsData(items.value.fields);
      var g := DecodeGifs(Prop(j, "gifs"));
      if cs.Some? && e.Some? && g.Some? then
        var fs := items.value.fields;
        assert Keys(e.value) == Keys(fs) by {
          assert forall k | k in Keys(fs) :: exists i | 0 <= i < |fs| :: k == fs[i].0;
          assert forall i | 0 <= i < |e.value| :: e.value[i].0 in Keys(fs);
        }
        Some(Snapshot(cs.value, e.value, g.value))
      else None
  }

  // ----- Which documents read as snapshots -----

  /** A category entry with string id, name, key and color; other properties may follow. */
  predicate HasCategoryFields(j: Json) {
    StrProp(j, "id").Some? && StrProp(j, "name").Some? && StrProp(j, "key").Some? && StrProp(j, "color").Some?
  }

  /** An item entry with string code and gifId; other properties may follow. */
  predicate HasItemFields(j: Json) {
    StrProp(j, "code").Some? && StrProp(j, "gifId").Some?
  }

  predicate ItemListShaped(v: Json) {
    v.JArr? && forall it | it in v.elems :: HasItemFields(it)
  }

  /** `gifs` is absent, falsy, or an object. */
  predicate GifsShaped(g: Option<Json>) {
    g.None? || !Truthy(g.value) || (g.value.JObj? && UniqueKeys(g.value.fields))
  }

  /** `categories` is an array of category entries, `itemsData` an object whose every
      value is an array of item entries, and `gifs` absent, falsy or an object. Property
      order and extra properties do not matter. */
  predicate Decodable(j: Json) {
    && IsArray(Prop(j, "categories"))
    && (forall c | c in Prop(j, "categories").value.elems :: HasCategoryFields(c))
    && Prop(j, "itemsData").Some? && Prop(j, "itemsData").value.JObj?
    && UniqueKeys(Prop(j, "itemsData").value.fields)
    && (forall i | 0 <= i < |Prop(j, "itemsData").value.fields| ::
          ItemListShaped(Prop(j, "itemsData").value.fields[i].1))
    && GifsShaped(Prop(j, "gifs"))
  }

  lemma {:induction false} DecodeCategoriesSome(js: seq<Json>)
    ensures DecodeCategories(js).Some? <==> forall c | c in js :: HasCategoryFields(c)
  {
    if js != [] {
      DecodeCategoriesSome(js[1..]);
      assert forall x | x in js :: x == js[0] || x in js[1..];
      assert forall x | x in js[1..] :: x in js;
    }
  }

  lemma {:induction false} DecodeItemsSome(js: seq<Json>)
    ensures DecodeItems(js).Some? <==> forall it | it in js :: HasItemFields(it)
  {
    if js != [] {
      DecodeItemsSome(js[1..]);
      assert forall x | x in js :: x == js[0] || x in js[1..];
      assert forall x | x in js[1..] :: x in js;
    }
  }

  lemma {:induction false} DecodeItemListsSome(fs: seq<(string, Json)>)
    ensures DecodeItemLists(fs).Some? <==> forall i | 0 <= i < |fs| :: ItemListShaped(fs[i].1)
  {
    if fs != [] {
      DecodeItemListsSome(fs[1..]);
      if fs[0].1.JArr? {
        DecodeItemsSome(fs[0].1.elems);
      }
      assert forall i | 1 <= i < |fs| :: fs[i] == fs[1..][i - 1];
    }
  }

  /** Exactly the documents of the described shape read as snapshots: reordered keys,
      extra properties on a category or item, and a missing `gifs` all decode. */
  lemma DecodeSucceeds(j: Json)
    ensures Decode(j).Some? <==> Decodable(j)
  {
    var cats := Prop(j, "categories");
    var items := Prop(j, "itemsData");
    if cats.Some? && cats.value.JArr? {
      DecodeCategoriesSome(cats.value.elems);
    }
    if items.Some? && items.value.JObj? {
      DecodeItemListsSome(items.value.fields);
    }
  }

  /** What a successful `Decode` read its parts from. */
  lemma DecodeParts(j: Json, s: Snapshot)
    requires Decode(j) == Some(s)
    ensures j.JObj? && IsArray(Prop(j, "categories"))
    ensures Prop(j, "itemsData").Some? && Prop(j, "itemsData").value.JObj?
    ensures !TruthyProp(Prop(j, "gifs")) || TypeofObject(Prop(j, "gifs"))
    ensures DecodeCategories(Prop(j, "categories").value.elems) == Some(s.categories)
    ensures DecodeItemLists(Prop(j, "itemsData").value.fields) == Some(s.itemsData)
  {
  }

  lemma {:induction false} DecodeEncodeCategories(cs: seq<Category>)
    ensures DecodeCategories(EncodeCategories(cs)) == Some(cs)
  {
    if cs != [] {
      var js := EncodeCategories(cs);
      assert js[1..] == EncodeCategories(cs[1..]);
      DecodeEncodeCategories(cs[1..]);
      assert [cs[0]] + cs[1..] == cs;
    }
  }

  lemma {:induction false} DecodeEncodeItems(items: seq<Item>)
    ensures DecodeItems(EncodeItems(items)) == Some(items)
  {
    if items != [] {
      var js := EncodeItems(items);
      assert js[1..] == EncodeItems(items[1..]);
      DecodeEncodeItems(items[1..]);
      assert [items[0]] + items[1..] == items;
    }
  }

  lemma {:induction false} DecodeEncodeItemLists(e: Entries<seq<Item>>)
    ensures DecodeItemLists(EncodeItemsData(e)) == Some(e)
  {
    if e != [] {
      var fs := EncodeItemsData(e);
      assert fs[1..] == EncodeItemsData(e[1..]);
      DecodeEncodeItemLists(e[1..]);
      DecodeEncodeItems(e[0].1);
      assert [(e[0].0, e[0].1)] + e[1..] == e;
    }
  }

  lemma EncodeItemsDataDecodes(e: Obj<seq<Item>>)
    ensures DecodeItemsData(EncodeItemsData(e)) == Some(e)
  {
    var fs := EncodeItemsData(e);
    DecodeEncodeItemLists(e);
    assert UniqueKeys(fs) by {
      forall i, k | 0 <= i < k < |fs| ensures fs[i].0 != fs[k].0 {
        assert fs[i].0 == e[i].0 && fs[k].0 == e[k].0;
      }
    }
  }

  /** Saving a snapshot as JSON and reading it back gives the same snapshot. */
  lemma DecodeEncode(s: Snapshot)
    ensures Decode(Encode(s)) == Some(s)
  {
    var cs := EncodeCategories(s.categories);
    var fs := EncodeItemsData(s.itemsData);
    DecodeEncodeCategories(s.categories);
    EncodeItemsDataDecodes(s.itemsData);
    DecodeDoc(cs, fs, s);
  }

  /** A three-property document whose parts decode reads as the snapshot of those parts. */
  lemma DecodeDoc(cs: seq<Json>, fs: seq<(string, Json)>, s: Snapshot)
    requires DecodeCategories(cs) == Some(s.categories)
    requires DecodeItemsData(fs) == Some(s.itemsData)
    ensures Decode(Doc(JArr(cs), JObj(fs), JObj(s.gifs))) == Some(s)
  {
    DocProps(JArr(cs), JObj(fs), JObj(s.gifs));
    assert DecodeGifs(Some(JObj(s.gifs))) == Some(s.gifs);
  }

  /** The empty document reads as the empty snapshot. */
  lemma DecodeEmptyDoc()
    ensures Decode(EmptyDoc) == Some(Empty)
  {
    assert Prop(EmptyDoc, "categories") == Some(JArr([]));
    assert Prop(EmptyDoc, "itemsData") == Some(JObj([]));
    assert Prop(EmptyDoc, "gifs") == Some(JObj([]));
  }
}

=== FILE: export.dfy ===
/** Building an export package: the filtered snapshot of `exportSelectedData`, the item
    count the `export-data` handler reports, and the files the `save-export-file` handler
    puts into the archive. */
module Export {
  import opened Common
  import opened Strings
  import opened Objects
  import opened Js
  import opened Data
  import opened Assets

  /** The gifIds referenced anywhere in an `itemsData`. */
  function AllGifIds(e: Entries<seq<Item>>): set<string> {
    set i, it | 0 <= i < |e| && it in e[i].1 :: it.gifId
  }

  /** The categories whose id is selected, in their original order. */
  function SelectCategories(cs: seq<Category>, selected: seq<string>): (r: seq<Category>)
    ensures |r| <= |cs|
    ensures forall c :: c in r <==> c in cs && c.id in selected
  {
    if cs == [] then []
    else
      var rest := SelectCategories(cs[1..], selected);
      assert cs == [cs[0]] + cs[1..];
      (if cs[0].id in selected then [cs[0]] else []) + rest
  }

  /** A selected category occurs as often as in the source, any other not at all. */
  lemma {:induction false} SelectCategoriesCounts(cs: seq<Category>, selected: seq<string>)
    ensures forall c :: multiset(SelectCategories(cs, selected))[c] == if c.id in selected then multiset(cs)[c] else 0
  {
    if cs != [] {
      SelectCategoriesCounts(cs[1..], selected);
      assert cs == [cs[0]] + cs[1..];
    }
  }

  /** Filtering keeps the original order. */
  lemma {:induction false} SelectCategoriesOrdered(cs: seq<Category>, selected: seq<string>)
    ensures Subsequence(SelectCategories(cs, selected), cs)
  {
    if cs != [] {
      SelectCategoriesOrdered(cs[1..], selected);
      var rest := SelectCategories(cs[1..], selected);
      if cs[0].id in selected {
        assert SelectCategories(cs, selected) == [cs[0]] + rest;
        assert ([cs[0]] + rest)[1..] == rest;
      } else {
        assert SelectCategories(cs, selected) == rest;
      }
    }
  }

  /** Filtering twice by the same selection is filtering once. */
  lemma {:induction false} SelectCategoriesIdempotent(cs: seq<Category>, selected: seq<string>)
    ensures SelectCategories(SelectCategories(cs, selected), selected) == SelectCategories(cs, selected)
  {
    if cs != [] {
      SelectCategoriesIdempotent(cs[1..], selected);
      var rest := SelectCategories(cs[1..], selected);
      if cs[0].id in selected {
        var once := [cs[0]] + rest;
        assert SelectCategories(cs, selected) == once;
        assert once[0] == cs[0] && once[1..] == rest;
        assert SelectCategories(once, selected) == [cs[0]] + SelectCategories(rest, selected);
      } else {
        assert SelectCategories(cs, selected) == rest;
      }
    }
  }

  /** `dataManager.js` lines 89-96: for each selected id, in selection order, the item
      list of that category when the source has one. */
  function SelectItems(e: Obj<seq<Item>>, selected: seq<string>): (r: Obj<seq<Item>>)
    ensures Keys(r) == Keys(e) * set k | k in selected
    ensures forall k | k in Keys(r) :: Get(r, k) == Get(e, k)
    decreases |selected|
  {
    if selected == [] then []
    else
      var acc := SelectItems(e, selected[..|selected| - 1]);
      var k := selected[|selected| - 1];
      assert forall x :: x in selected <==> x in selected[..|selected| - 1] || x == k;
      match Get(e, k)
      case Some(items) => Put(acc, k, items)
      case None => acc
  }

  /** What an export writes: the manifest and the asset files copied next to it. */
  datatype Package = Package(manifest: Snapshot, assets: Dir)

  /** `exportSelectedData(data, selectedCategoryIds, targetDir)`: the selected categories
      and their item lists, no `gifs` metadata, and the asset of every referenced gifId
      whose file exists. */
  function ExportSelected(data: Snapshot, selected: seq<string>, gifs: Dir): (p: Package)
    ensures p.manifest.categories == SelectCategories(data.categories, selected)
    ensures p.manifest.itemsData == SelectItems(data.itemsData, selected)
    ensures p.manifest.gifs == []
    ensures forall f :: f in p.assets <==> f in gifs && exists g :: g in AllGifIds(p.manifest.itemsData) && f == GifPath(g)
    ensures forall f | f in p.assets :: p.assets[f] == gifs[f]
  {
    var e := SelectItems(data.itemsData, selected);
    var ids := AllGifIds(e);
    Package(Snapshot(SelectCategories(data.categories, selected), e, []),
            map f | f in gifs && exists g :: g in ids && f == GifPath(g) :: gifs[f])
  }

  /** An exported manifest of a well-formed snapshot is well formed. */
  lemma ExportSelectedWellFormed(data: Snapshot, selected: seq<string>, gifs: Dir)
    requires WellFormed(data)
    ensures WellFormed(ExportSelected(data, selected, gifs).manifest)
  {
    var e := ExportSelected(data, selected, gifs).manifest.itemsData;
    forall i | 0 <= i < |e| ensures ItemsOk(e[i].1) {
      GetAt(e, i);
      assert e[i].0 in Keys(e);
      GetFound(data.itemsData, e[i].0);
      var j :| 0 <= j < |data.itemsData| && data.itemsData[j].0 == e[i].0 && Get(data.itemsData, e[i].0) == Some(data.itemsData[j].1);
    }
  }

  /** The `export-data` handler's `gifCount`: the sum of the item-list lengths. */
  function GifCount(e: Entries<seq<Item>>): (n: nat)
    ensures e == [] ==> n == 0
    ensures |e| == 1 ==> n == |e[0].1|
    ensures forall i | 0 <= i < |e| :: |e[i].1| <= n
  {
    if e == [] then 0 else |e[0].1| + GifCount(e[1..])
  }

  /** The count adds up across a split of the categories. */
  lemma {:induction false} GifCountAppend(a: Entries<seq<Item>>, b: Entries<seq<Item>>)
    ensures GifCount(a + b) == GifCount(a) + GifCount(b)
  {
    if a == [] {
      assert a + b == b;
    } else {
      assert (a + b)[0] == a[0];
      assert (a + b)[1..] == a[1..] + b;
      GifCountAppend(a[1..], b);
    }
  }

  /** The count is of items, so it bounds the number of distinct gifIds. */
  lemma {:induction false} GifCountBoundsIds(e: Entries<seq<Item>>)
    ensures |AllGifIds(e)| <= GifCount(e)
  {
    if e != [] {
      GifCountBoundsIds(e[1..]);
      ItemIdsBound(e[0].1);
      AllGifIdsCons(e);
    }
  }

  /** The gifIds of a non-empty list: those of its first category and of the rest. */
  lemma AllGifIdsCons(e: Entries<seq<Item>>)
    requires e != []
    ensures AllGifIds(e) == GifIds(e[0].1) + AllGifIds(e[1..])
  {
    forall g | g in AllGifIds(e) ensures g in GifIds(e[0].1) + AllGifIds(e[1..]) {
      var i, it :| 0 <= i < |e| && it in e[i].1 && it.gifId == g;
      if i > 0 { assert e[1..][i - 1] == e[i]; }
    }
    forall g | g in AllGifIds(e[1..]) ensures g in AllGifIds(e) {
      var i, it :| 0 <= i < |e[1..]| && it in e[1..][i].1 && it.gifId == g;
      assert e[i + 1] == e[1..][i];
    }
  }

  /** A list of items has at most as many gifIds as items. */
  lemma {:induction false} ItemIdsBound(items: seq<Item>)
    ensures |GifIds(items)| <= |items|
  {
    if items != [] {
      ItemIdsBound(items[1..]);
      assert GifIds(items) == {items[0].gifId} + GifIds(items[1..]) by {
        forall g | g in GifIds(items) ensures g in {items[0].gifId} + GifIds(items[1..]) {
          var it :| it in items && it.gifId == g;
          if it != items[0] {
            var j :| 0 <= j < |items| && items[j] == it;
            assert items[1..][j - 1] == it;
          }
        }
      }
    }
  }

  /** Two items with one GIF count twice. */
  lemma GifCountCountsItems()
    ensures GifCount([("c", [Item("a", "g"), Item("b", "g")])]) == 2
    ensures AllGifIds([("c", [Item("a", "g"), Item("b", "g")])]) == {"g"}
  {
    var e := [("c", [Item("a", "g"), Item("b", "g")])];
    assert e[1..] == [];
    assert AllGifIds(e) == {"g"} by {
      assert Item("a", "g") in e[0].1;
    }
  }

  /** `main.js` lines 364-371: every truthy gifId of every category of the export data. */
  function ExportIds(e: Entries<seq<Item>>): (ids: set<string>)
    ensures ids == AllGifIds(e) - {""}
  {
    set i, it | 0 <= i < |e| && it in e[i].1 && it.gifId != "" :: it.gifId
  }

  /** `main.js` line 378 as written: the id of a file is its name with the FIRST `.gif`
      removed, and a file is packaged when that id was collected. */
  function PackageFilesAsWritten(gifs: Dir, ids: set<string>): (r: Dir)
    ensures forall f :: f in r <==> f in gifs && EndsWith(f, Suffix) && ReplaceFirst(f, Suffix, "") in ids
    ensures forall f | f in r :: r[f] == gifs[f]
  {
    map f | f in gifs && EndsWith(f, Suffix) && ReplaceFirst(f, Suffix, "") in ids :: gifs[f]
  }

  /** The selection as intended: the id of a file is its name with the `.gif` SUFFIX
      removed, the same rule the import applies. */
  function PackageFiles(gifs: Dir, ids: set<string>): (r: Dir)
    ensures forall f | f in r :: f in gifs && r[f] == gifs[f]
  {
    map f | f in gifs && EndsWith(f, Suffix) && StripGif(f) in ids :: gifs[f]
  }

  /** The intended selection is exactly the existing assets of the collected ids. */
  lemma PackageFilesExact(gifs: Dir, ids: set<string>)
    ensures forall f :: f in PackageFiles(gifs, ids) <==> f in gifs && exists g :: g in ids && f == GifPath(g)
  {
    forall f ensures f in PackageFiles(gifs, ids) <==> f in gifs && exists g :: g in ids && f == GifPath(g) {
      if f in PackageFiles(gifs, ids) {
        GifPathStrip(f);
      }
      if f in gifs && exists g :: g in ids && f == GifPath(g) {
        var g :| g in ids && f == GifPath(g);
        StripGifPath(g);
      }
    }
  }

  /** The first occurrence of `.gif` in a name ending in `.gif` is its suffix. */
  predicate PlainGifName(f: string) {
    EndsWith(f, Suffix) && IndexOf(f, Suffix) == Some(|f| - 4)
  }

  /** Removing the first `.gif` and stripping the suffix agree on plain names. */
  lemma ReplaceFirstIsStrip(f: string)
    requires PlainGifName(f)
    ensures ReplaceFirst(f, Suffix, "") == StripGif(f)
  {
    assert f[|f| - 4 + 4..] == [];
  }

  /** The two selections agree on a directory whose names are all plain. */
  lemma PackageFilesAgree(gifs: Dir, ids: set<string>)
    requires forall f | f in gifs && EndsWith(f, Suffix) :: PlainGifName(f)
    ensures PackageFilesAsWritten(gifs, ids) == PackageFiles(gifs, ids)
  {
    forall f | f in gifs && EndsWith(f, Suffix) ensures ReplaceFirst(f, Suffix, "") == StripGif(f) {
      ReplaceFirstIsStrip(f);
    }
  }

  /** The gifId `a.gifb` has the asset `a.gifb.gif`, but removing its first `.gif` gives
      `ab.gif`: as written, the asset is left out of the package, and would be packaged
      for an unrelated gifId `ab.gif` instead. */
  lemma InnerGifAssetDropped(data: Bytes)
    ensures "a.gifb.gif" in PackageFiles(map["a.gifb.gif" := data], {"a.gifb"})
    ensures "a.gifb.gif" !in PackageFilesAsWritten(map["a.gifb.gif" := data], {"a.gifb"})
    ensures "a.gifb.gif" in PackageFilesAsWritten(map["a.gifb.gif" := data], {"ab.gif"})
  {
    var f := "a.gifb.gif";
    assert GifPath("a.gifb") == f;
    StripGifPath("a.gifb");
    assert f[1..5] == Suffix;
    assert !OccursAt(f, Suffix, 0) by { assert f[0] != '.'; }
    assert IndexOfFrom(f, Suffix, 1) == Some(1);
    assert IndexOf(f, Suffix) == Some(1) by {
      assert IndexOfFrom(f, Suffix, 0) == IndexOfFrom(f, Suffix, 1);
    }
    assert ReplaceFirst(f, Suffix, "") == "ab.gif";
    assert "ab.gif" != "a.gifb" by { assert "ab.gif"[1] != "a.gifb"[1]; }
  }

  /** The `save-export-file` handler's temporary directory before archiving: the assets of
      the collected gifIds (none when the gifs directory does not exist) and `data.json`
      holding the export data as given. */
  function SaveExportFile(exportData: Snapshot, gifs: Option<Dir>, stringify: Json -> Bytes): (files: Dir)
    ensures "data.json" in files && files["data.json"] == stringify(Encode(exportData))
    ensures gifs.None? ==> files.Keys == {"data.json"}
    ensures gifs.Some? ==> forall f | f != "data.json" ::
      f in files <==> f in gifs.value && exists g :: g in ExportIds(exportData.itemsData) && f == GifPath(g)
    ensures gifs.Some? ==> forall f | f in files && f != "data.json" :: files[f] == gifs.value[f]
  {
    var manifest := stringify(Encode(exportData));
    if gifs.Some? then
      PackageFilesExact(gifs.value, ExportIds(exportData.itemsData));
      PackageFiles(gifs.value, ExportIds(exportData.itemsData))["data.json" := manifest]
    else map["data.json" := manifest]
  }
}

=== FILE: import.dfy ===
/** Importing a package: `importWithFiles` reads and checks the manifest and copies the
    assets, then the `import-data` handler applies the strategy the user picked. */
module Import {
  import opened Common
  import opened Strings
  import opened Js
  import opened Data
  import opened Validation
  import opened Merge
  import opened Assets
  import opened Store
  import opened Export

  /** The reasons `importWithFiles` throws. */
  datatype ImportError =
    | MissingManifest   // no `data.json` in the directory
    | MalformedManifest // `JSON.parse` threw
    | InvalidData       // the validator returned false
    | ValidatorThrew    // the validator read a property of `null`

  /** The outcome of `importWithFiles`, and the gifs directory afterwards. */
  datatype Imported = Imported(result: Result<Json, ImportError>, gifs: Dir)

  /** Each `.gif` name is its own asset name under the stripped id. */
  lemma GifNamesKept(src: Dir)
    ensures forall f | f in src && EndsWith(f, Suffix) :: GifPath(StripGif(f)) == f
  {
    forall f | f in src && EndsWith(f, Suffix) ensures GifPath(StripGif(f)) == f {
      GifPathStrip(f);
    }
  }

  /** `dataManager.js` lines 168-173: every `.gif` file of the directory is copied to the
      asset of the id `path.basename(file, '.gif')`, overwriting it. That asset's name is the file's own
      name (`GifNamesKept`), so the copy keeps names. */
  function CopyAssets(src: Dir, gifs: Dir): (r: Dir)
    ensures forall f | f in src && EndsWith(f, Suffix) :: GifPath(StripGif(f)) in r && r[GifPath(StripGif(f))] == src[f]
    ensures forall f | f in gifs && !(f in src && EndsWith(f, Suffix)) :: f in r && r[f] == gifs[f]
    ensures forall f | f in r :: f in gifs || (f in src && EndsWith(f, Suffix))
  {
    GifNamesKept(src);
    gifs + map f | f in src && EndsWith(f, Suffix) :: src[f]
  }

  /** `importWithFiles(sourceDir)`: `src` is the extracted directory and `parse` reads and
      parses a file. Every failure happens before any asset is copied. */
  function ImportWithFiles(src: Dir, gifs: Dir, parse: Bytes -> Option<Json>): (r: Imported)
    ensures "data.json" !in src ==> r.result == Err(MissingManifest)
    ensures "data.json" in src && parse(src["data.json"]).None? ==> r.result == Err(MalformedManifest)
    ensures "data.json" in src && parse(src["data.json"]).Some? ==>
      var v := Validate(parse(src["data.json"]).value);
      && (v == Verdict.Rejected ==> r.result == Err(InvalidData))
      && (v == Threw ==> r.result == Err(ValidatorThrew))
      && (v == Accepted ==> r.result == Ok(parse(src["data.json"]).value))
    ensures r.result.Err? ==> r.gifs == gifs
    ensures r.result.Ok? ==> Validate(r.result.value) == Accepted && r.gifs == CopyAssets(src, gifs)
  {
    if "data.json" !in src then Imported(Err(MissingManifest), gifs)
    else
      match parse(src["data.json"])
      case None => Imported(Err(MalformedManifest), gifs)
      case Some(data) =>
        var verdict := Validate(data);
        if verdict == Accepted then Imported(Ok(data), CopyAssets(src, gifs))
        else if verdict == Threw then Imported(Err(ValidatorThrew), gifs)
        else Imported(Err(InvalidData), gifs)
  }

  /** What an accepted document holds is truthy, so the handler's `!importedData` check
      never fires after a successful import. */
  lemma ImportedIsTruthy(src: Dir, gifs: Dir, parse: Bytes -> Option<Json>)
    requires ImportWithFiles(src, gifs, parse).result.Ok?
    ensures Truthy(ImportWithFiles(src, gifs, parse).result.value)
  {
  }

  /** The user data the handler reads and writes. */
  datatype AppState = AppState(dataFile: Option<Bytes>, gifs: Dir)

  /** The handler's return value (`None` is `null`) and the state it leaves. */
  datatype Reply = Reply(value: Option<Json>, state: AppState)

  /** `mergeData(importedData)` on the loaded current document. Documents that do not read
      as snapshots are treated as a throw. */
  function MergeDocs(current: Json, incoming: Json): (r: Option<Json>)
    ensures r.Some? <==> Decode(current).Some? && Decode(incoming).Some?
    ensures r.Some? ==> Decode(r.value) == Some(Merge.Merge(Decode(current).value, Decode(incoming).value))
  {
    match (Decode(current), Decode(incoming))
    case (Some(c), Some(i)) =>
      DecodeEncode(Merge.Merge(c, i));
      Some(Encode(Merge.Merge(c, i)))
    case _ => None
  }

  /** The `import-data` handler once a file is chosen: `src` is the extracted package and
      `response` the index of the button pressed (0 merge, 1 replace, 2 cancel). */
  function ImportData(state: AppState, src: Dir, response: int,
                      parse: Bytes -> Option<Json>, stringify: Json -> Bytes): (r: Reply)
    ensures r.state.gifs == ImportWithFiles(src, state.gifs, parse).gifs
    ensures r.value.None? ==> r.state.dataFile == state.dataFile
    ensures r.value.Some? ==> r.state.dataFile == Some(stringify(r.value.value))
    ensures r.value.Some? ==> response != 2 && ImportWithFiles(src, state.gifs, parse).result.Ok?
    ensures response != 0 && response != 2 && ImportWithFiles(src, state.gifs, parse).result.Ok? ==>
      r.value == Some(ImportWithFiles(src, state.gifs, parse).result.value)
  {
    var imported := ImportWithFiles(src, state.gifs, parse);
    var after := state.(gifs := imported.gifs);
    match imported.result
    case Err(_) => Reply(None, after)
    case Ok(data) =>
      if !Truthy(data) then Reply(None, after)
      else if response == 2 then Reply(None, after)
      else
        var chosen := if response == 0 then MergeDocs(Load(state.dataFile, parse), data) else Some(data);
        match chosen
        case None => Reply(None, after)
        case Some(m) => Reply(Some(m), after.(dataFile := Save(m, stringify)))
  }

  /** A failed import leaves the data file and the assets as they were. */
  lemma ImportFailureChangesNothing(state: AppState, src: Dir, response: int,
                                    parse: Bytes -> Option<Json>, stringify: Json -> Bytes)
    requires ImportWithFiles(src, state.gifs, parse).result.Err?
    ensures ImportData(state, src, response, parse, stringify) == Reply(None, state)
  {
  }

  /** Cancelling keeps the data file, but the assets were already copied. */
  lemma CancelKeepsDataFile(state: AppState, src: Dir, parse: Bytes -> Option<Json>, stringify: Json -> Bytes)
    requires ImportWithFiles(src, state.gifs, parse).result.Ok?
    ensures ImportData(state, src, 2, parse, stringify)
         == Reply(None, state.(gifs := CopyAssets(src, state.gifs)))
  {
  }

  /** Merging saves the merge of the current and the imported snapshots; it keeps every
      current category, and when the current data is well formed so is what is saved,
      which therefore passes the import check itself. */
  lemma MergeStrategySaves(state: AppState, src: Dir, parse: Bytes -> Option<Json>, stringify: Json -> Bytes,
                           current: Snapshot, incoming: Snapshot)
    requires ImportWithFiles(src, state.gifs, parse).result.Ok?
    requires Decode(Load(state.dataFile, parse)) == Some(current)
    requires Decode(ImportWithFiles(src, state.gifs, parse).result.value) == Some(incoming)
    ensures ImportData(state, src, 0, parse, stringify).value == Some(Encode(Merge.Merge(current, incoming)))
    ensures current.categories <= Merge.Merge(current, incoming).categories
    ensures WellFormed(current) ==> Validate(Encode(Merge.Merge(current, incoming))) == Accepted
  {
    var data := ImportWithFiles(src, state.gifs, parse).result.value;
    ImportDataMerges(state, src, parse, stringify);
    MergeDocsDecoded(Load(state.dataFile, parse), data, current, incoming);
    if WellFormed(current) {
      ValidateDecoded(data, incoming);
      MergedAccepted(current, incoming);
    }
  }

  /** Merging two documents that read as snapshots writes out the merge of the snapshots. */
  lemma MergeDocsDecoded(currentDoc: Json, incomingDoc: Json, current: Snapshot, incoming: Snapshot)
    requires Decode(currentDoc) == Some(current) && Decode(incomingDoc) == Some(incoming)
    ensures MergeDocs(currentDoc, incomingDoc) == Some(Encode(Merge.Merge(current, incoming)))
  {
  }

  /** Choosing merge after a successful import answers with what merging gives. */
  lemma ImportDataMerges(state: AppState, src: Dir, parse: Bytes -> Option<Json>, stringify: Json -> Bytes)
    requires ImportWithFiles(src, state.gifs, parse).result.Ok?
    ensures ImportData(state, src, 0, parse, stringify).value
         == MergeDocs(Load(state.dataFile, parse), ImportWithFiles(src, state.gifs, parse).result.value)
  {
    ImportedIsTruthy(src, state.gifs, parse);
  }

  /** The merge of two well-formed snapshots, saved, passes the import check. */
  lemma MergedAccepted(current: Snapshot, incoming: Snapshot)
    requires WellFormed(current) && WellFormed(incoming)
    ensures Validate(Encode(Merge.Merge(current, incoming))) == Accepted
  {
    MergePreservesWellFormed(current, incoming);
    ValidateEncoded(Merge.Merge(current, incoming));
  }

  /** An exported package imports back: the manifest is accepted as it was written, and
      every exported asset lands under its own name. */
  lemma ExportImportRoundTrip(s: Snapshot, gifs: Dir, target: Dir,
                              parse: Bytes -> Option<Json>, stringify: Json -> Bytes)
    requires WellFormed(s)
    requires parse(stringify(Encode(s))) == Some(Encode(s))
    ensures ImportWithFiles(SaveExportFile(s, Some(gifs), stringify), target, parse).result == Ok(Encode(s))
    ensures forall g | g in ExportIds(s.itemsData) && GifPath(g) in gifs ::
      var after := ImportWithFiles(SaveExportFile(s, Some(gifs), stringify), target, parse).gifs;
      GifPath(g) in after && after[GifPath(g)] == gifs[GifPath(g)]
  {
    var pkg := SaveExportFile(s, Some(gifs), stringify);
    ValidateEncoded(s);
    var after := ImportWithFiles(pkg, target, parse).gifs;
    forall g | g in ExportIds(s.itemsData) && GifPath(g) in gifs
      ensures GifPath(g) in after && after[GifPath(g)] == gifs[GifPath(g)]
    {
      var f := GifPath(g);
      assert f != "data.json" by {
        assert !EndsWith("data.json", Suffix) by { assert "data.json"[8] != 'f'; }
      }
      assert f in pkg;
      assert pkg[f] == gifs[f];
      GifPathStrip(f);
    }
  }
}

=== FILE: js.dfy ===
/** Values produced by `JSON.parse`, and the JavaScript operators the data layer applies
    to them: truthiness, `typeof`, `Array.isArray` and property reads. */
module Js {
  import opened Common
  import Objects

  /** A parsed JSON value. An object lists its properties in enumeration order. */
  datatype Json =
    | JNull
    | JBool(b: bool)
    | JNum(n: real)
    | JStr(s: string)
    | JArr(elems: seq<Json>)
    | JObj(fields: seq<(string, Json)>)

  /** JavaScript truthiness: `null`, `false`, `0` and `""` are falsy; every array and
      object, even an empty one, is truthy. */
  predicate Truthy(v: Json) {
    match v
    case JNull => false
    case JBool(b) => b
    case JNum(n) => n != 0.0
    case JStr(s) => s != ""
    case _ => true
  }

  /** Truthiness of a property read, where `undefined` is falsy. */
  predicate TruthyProp(v: Option<Json>) {
    v.Some? && Truthy(v.value)
  }

  /** `Array.isArray(v)` */
  predicate IsArray(v: Option<Json>) {
    v.Some? && v.value.JArr?
  }

  /** `typeof v === 'object'`, which holds for `null` and arrays as well. */
  predicate TypeofObject(v: Option<Json>) {
    v.Some? && (v.value.JNull? || v.value.JArr? || v.value.JObj?)
  }

  /** The read `v.name` on a value that is not `null` (reading a property of `null`
      throws; callers model that). Arrays, strings, numbers and booleans have none of
      the property names the data layer reads, so those give `undefined`. */
  function Prop(v: Json, name: string): (r: Option<Json>)
    ensures r.Some? ==> v.JObj?
  {
    if v.JObj? then Objects.Get(v.fields, name) else None
  }
}

=== FILE: merge.dfy ===
/** Combining the current snapshot with an imported one (`mergeData`): categories and
    items keep the current entry on a clash, the GIF registry takes the incoming one. */
module Merge {
  import opened Common
  import opened Objects
  import opened Js
  import opened Data

  lemma IdsAppend(cs: seq<Category>, c: Category)
    ensures Ids(cs + [c]) == Ids(cs) + {c.id}
  {
    forall y | y in cs + [c] ensures y in cs || y == c {
    }
  }

  lemma IdsCons(cs: seq<Category>)
    requires cs != []
    ensures Ids(cs) == {cs[0].id} + Ids(cs[1..])
  {
    assert cs == [cs[0]] + cs[1..];
    assert forall x | x in cs :: x == cs[0] || x in cs[1..];
  }

  // ----- Categories -----

  /** `dataManager.js` lines 44-52: start from `merged` and push each incoming category
      whose id is not yet in the growing list. */
  function MergeCategories(merged: seq<Category>, incoming: seq<Category>): (r: seq<Category>)
    ensures |merged| <= |r| && forall i | 0 <= i < |merged| :: r[i] == merged[i]
    ensures Ids(r) == Ids(merged) + Ids(incoming)
    ensures forall i | |merged| <= i < |r| :: r[i] in incoming && r[i].id !in Ids(merged)
    ensures forall i, j | |merged| <= i < j < |r| :: r[i].id != r[j].id
    decreases |incoming|
  {
    if incoming == [] then merged
    else
      var c := incoming[0];
      var next := if c.id in Ids(merged) then merged else merged + [c];
      var r := MergeCategories(next, incoming[1..]);
      MergeCategoriesStep(merged, incoming, next, r);
      r
  }

  /** The step of `MergeCategories`: what the recursive call promises about `next`
      carries over to `merged`. */
  lemma MergeCategoriesStep(merged: seq<Category>, incoming: seq<Category>, next: seq<Category>, r: seq<Category>)
    requires incoming != []
    requires next == if incoming[0].id in Ids(merged) then merged else merged + [incoming[0]]
    requires |next| <= |r| && forall i | 0 <= i < |next| :: r[i] == next[i]
    requires Ids(r) == Ids(next) + Ids(incoming[1..])
    requires forall i | |next| <= i < |r| :: r[i] in incoming[1..] && r[i].id !in Ids(next)
    requires forall i, j | |next| <= i < j < |r| :: r[i].id != r[j].id
    ensures |merged| <= |r| && forall i | 0 <= i < |merged| :: r[i] == merged[i]
    ensures Ids(r) == Ids(merged) + Ids(incoming)
    ensures forall i | |merged| <= i < |r| :: r[i] in incoming && r[i].id !in Ids(merged)
    ensures forall i, j | |merged| <= i < j < |r| :: r[i].id != r[j].id
  {
    var c := incoming[0];
    IdsCons(incoming);
    IdsAppend(merged, c);
    assert forall x | x in incoming[1..] :: x in incoming;
    if c.id !in Ids(merged) {
      assert r[|merged|] == c;
    }
  }

  /** The ids in a list are pairwise distinct. */
  predicate DistinctIds(cs: seq<Category>) {
    forall i, j | 0 <= i < j < |cs| :: cs[i].id != cs[j].id
  }

  /** Keeps each category whose id does not occur earlier in the list. */
  function FirstOccurrences(cs: seq<Category>): (r: seq<Category>)
    ensures DistinctIds(r) && Ids(r) == Ids(cs)
    ensures forall c | c in r :: c in cs
    ensures DistinctIds(cs) ==> r == cs
  {
    if cs == [] then []
    else
      var init := cs[..|cs| - 1];
      var last := cs[|cs| - 1];
      assert cs == init + [last];
      IdsAppend(init, last);
      var p := FirstOccurrences(init);
      IdsAppend(p, last);
      if last.id in Ids(init) then
        p
      else
        var r := p + [last];
        assert DistinctIds(r) by {
          forall i, j | 0 <= i < j < |r| ensures r[i].id != r[j].id {
            if j == |r| - 1 {
              assert r[i] in p;
            }
          }
        }
        r
  }

  /** The categories whose id is not in `ids`, in their order. */
  function Without(cs: seq<Category>, ids: set<string>): (r: seq<Category>)
    ensures forall c | c in r :: c in cs && c.id !in ids
    ensures ids == {} ==> r == cs
  {
    if cs == [] then []
    else
      var init := cs[..|cs| - 1];
      var last := cs[|cs| - 1];
      assert cs == init + [last];
      Without(init, ids) + (if last.id in ids then [] else [last])
  }

  lemma {:induction false} MergeCategoriesSnoc(merged: seq<Category>, incoming: seq<Category>, x: Category)
    ensures MergeCategories(merged, incoming + [x])
         == var r := MergeCategories(merged, incoming); if x.id in Ids(r) then r else r + [x]
    decreases |incoming|
  {
    if incoming == [] {
      assert MergeCategories(merged, [x]) == MergeCategories(if x.id in Ids(merged) then merged else merged + [x], []);
    } else {
      var c := incoming[0];
      var next := if c.id in Ids(merged) then merged else merged + [c];
      assert (incoming + [x])[0] == c;
      assert (incoming + [x])[1..] == incoming[1..] + [x];
      MergeCategoriesSnoc(next, incoming[1..], x);
    }
  }

  lemma FirstOccurrencesSnoc(p: seq<Category>, x: Category)
    ensures FirstOccurrences(p + [x]) == FirstOccurrences(p) + (if x.id in Ids(p) then [] else [x])
  {
    assert (p + [x])[..|p + [x]| - 1] == p;
  }

  lemma WithoutSnoc(cs: seq<Category>, x: Category, ids: set<string>)
    ensures Without(cs + [x], ids) == Without(cs, ids) + (if x.id in ids then [] else [x])
  {
    assert (cs + [x])[..|cs + [x]| - 1] == cs;
  }

  /** An independent account of the merged category list: the current list, then the
      first occurrence of each incoming id, minus the ids already current. */
  lemma {:induction false} MergeCategoriesReference(current: seq<Category>, incoming: seq<Category>)
    ensures MergeCategories(current, incoming) == current + Without(FirstOccurrences(incoming), Ids(current))
    decreases |incoming|
  {
    if incoming != [] {
      var p := incoming[..|incoming| - 1];
      var x := incoming[|incoming| - 1];
      assert incoming == p + [x];
      MergeCategoriesReference(current, p);
      MergeCategoriesSnoc(current, p, x);
      FirstOccurrencesSnoc(p, x);
      var r := MergeCategories(current, p);
      assert x.id in Ids(r) <==> x.id in Ids(current) || x.id in Ids(p);
      ReferenceStep(current, FirstOccurrences(p), x, Ids(current), x.id in Ids(current), x.id in Ids(p));
    }
  }

  /** The step of `MergeCategoriesReference` for one more incoming category `x`, whose id
      is already current (`inCurrent`) or already among the earlier incoming (`inEarlier`). */
  lemma ReferenceStep(current: seq<Category>, fp: seq<Category>, x: Category, ids: set<string>,
                      inCurrent: bool, inEarlier: bool)
    requires inCurrent == (x.id in ids)
    ensures (if inCurrent || inEarlier then current + Without(fp, ids) else current + Without(fp, ids) + [x])
         == current + Without(fp + (if inEarlier then [] else [x]), ids)
  {
    if inEarlier {
      assert fp + [] == fp;
    } else {
      WithoutSnoc(fp, x, ids);
    }
  }

  // ----- Items -----

  /** `dataManager.js` line 62: the incoming items whose gifId is not in `existing`, in
      their order. Duplicates among the incoming items themselves all survive. */
  function FreshItems(incoming: seq<Item>, existing: set<string>): (r: seq<Item>)
    ensures forall it :: multiset(r)[it] == if it.gifId in existing then 0 else multiset(incoming)[it]
    ensures Subsequence(r, incoming)
    ensures GifIds(r) == GifIds(incoming) - existing
    ensures forall it | it in r :: it in incoming && it.gifId !in existing
    ensures (forall it | it in incoming :: it.gifId !in existing) ==> r == incoming
  {
    if incoming == [] then []
    else
      var rest := FreshItems(incoming[1..], existing);
      var r := (if incoming[0].gifId in existing then [] else [incoming[0]]) + rest;
      FreshStepCounts(incoming, existing, rest, r);
      FreshStepOrder(incoming, existing, rest, r);
      FreshStepIds(incoming, existing, rest, r);
      r
  }

  /** The step of `FreshItems` for its counts and membership. */
  lemma FreshStepCounts(incoming: seq<Item>, existing: set<string>, rest: seq<Item>, r: seq<Item>)
    requires incoming != []
    requires r == (if incoming[0].gifId in existing then [] else [incoming[0]]) + rest
    requires forall it :: multiset(rest)[it] == if it.gifId in existing then 0 else multiset(incoming[1..])[it]
    requires forall it | it in rest :: it in incoming[1..] && it.gifId !in existing
    requires (forall it | it in incoming[1..] :: it.gifId !in existing) ==> rest == incoming[1..]
    ensures forall it :: multiset(r)[it] == if it.gifId in existing then 0 else multiset(incoming)[it]
    ensures forall it | it in r :: it in incoming && it.gifId !in existing
    ensures (forall it | it in incoming :: it.gifId !in existing) ==> r == incoming
  {
    assert incoming == [incoming[0]] + incoming[1..];
  }

  /** The step of `FreshItems` for the order of what it keeps. */
  lemma FreshStepOrder(incoming: seq<Item>, existing: set<string>, rest: seq<Item>, r: seq<Item>)
    requires incoming != []
    requires r == (if incoming[0].gifId in existing then [] else [incoming[0]]) + rest
    requires Subsequence(rest, incoming[1..])
    ensures Subsequence(r, incoming)
  {
    if incoming[0].gifId !in existing {
      assert r[0] == incoming[0] && r[1..] == rest;
    } else {
      assert r == rest;
    }
  }

  /** The step of `FreshItems` for the gifIds it keeps. */
  lemma FreshStepIds(incoming: seq<Item>, existing: set<string>, rest: seq<Item>, r: seq<Item>)
    requires incoming != []
    requires r == (if incoming[0].gifId in existing then [] else [incoming[0]]) + rest
    requires GifIds(rest) == GifIds(incoming[1..]) - existing
    ensures GifIds(r) == GifIds(incoming) - existing
  {
    GifIdsCons(incoming);
    if incoming[0].gifId !in existing {
      assert r[0] == incoming[0] && r[1..] == rest;
      GifIdsCons(r);
    } else {
      assert r == rest;
    }
  }

  /** The gifIds of a non-empty list: those of its head and of its tail. */
  lemma GifIdsCons(items: seq<Item>)
    requires items != []
    ensures GifIds(items) == {items[0].gifId} + GifIds(items[1..])
  {
    assert forall it :: it in items <==> it == items[0] || it in items[1..];
  }

  /** `dataManager.js` lines 57-66 for one category id: the items already there (none
      when the id is new), followed by the incoming items whose gifId they do not already have. Every
      incoming gifId is present afterwards. */
  function MergeItemList(existing: Option<seq<Item>>, incoming: seq<Item>): (r: seq<Item>)
    ensures existing.None? ==> r == incoming
    ensures existing.Some? ==> existing.value <= r
    ensures existing.Some? ==> GifIds(r) == GifIds(existing.value) + GifIds(incoming)
    ensures existing.Some? ==> forall i | |existing.value| <= i < |r| ::
      r[i] in incoming && r[i].gifId !in GifIds(existing.value)
  {
    var base := if existing.Some? then existing.value else [];
    var added := FreshItems(incoming, GifIds(base));
    AppendFacts(base, added);
    assert GifIds([]) == {};
    base + added
  }

  /** What appending fresh items to a list keeps and adds. */
  lemma AppendFacts(base: seq<Item>, added: seq<Item>)
    ensures base <= base + added
    ensures GifIds(base + added) == GifIds(base) + GifIds(added)
    ensures forall i | |base| <= i < |base + added| :: (base + added)[i] == added[i - |base|]
  {
    GifIdsAppend(base, added);
    assert base == (base + added)[..|base|];
  }

  /** The gifIds of a concatenation. */
  lemma GifIdsAppend(a: seq<Item>, b: seq<Item>)
    ensures GifIds(a + b) == GifIds(a) + GifIds(b)
  {
    assert forall it :: it in a + b <==> it in a || it in b;
  }

  /** The three statements of `dataManager.js` lines 57-68 for one entry, as written,
      amount to assigning `MergeItemList` of the value already there. */
  lemma MergeStepAsWritten(acc: Obj<seq<Item>>, catId: string, items: seq<Item>)
    ensures
      var withKey := if Get(acc, catId).None? then Put(acc, catId, []) else acc;
      var existing := Get(withKey, catId).value;
      var newItems := FreshItems(items, GifIds(existing));
      (if |newItems| > 0 then Put(withKey, catId, existing + newItems) else withKey)
      == Put(acc, catId, MergeItemList(Get(acc, catId), items))
  {
    if Get(acc, catId).None? {
      MergeStepNewId(acc, catId, items);
    } else {
      MergeStepKnownId(acc, catId, items);
    }
  }

  /** A new category id: the empty list put first is overwritten by the incoming items. */
  lemma MergeStepNewId(acc: Obj<seq<Item>>, catId: string, items: seq<Item>)
    requires Get(acc, catId).None?
    ensures
      var withKey := Put(acc, catId, []);
      var newItems := FreshItems(items, GifIds(Get(withKey, catId).value));
      (if |newItems| > 0 then Put(withKey, catId, newItems) else withKey)
      == Put(acc, catId, MergeItemList(None, items))
  {
    var withKey := Put(acc, catId, []);
    assert withKey == acc + [(catId, [])];
    assert Get(withKey, catId) == Some([]);
    assert GifIds([]) == {};
    var newItems := FreshItems(items, {});
    assert newItems == items;
    assert MergeItemList(None, items) == items;
    if |newItems| > 0 {
      PutTwice(acc, catId, [], items);
    } else {
      assert items == [];
    }
  }

  /** A known category id: the list grows in place, or stays when nothing is fresh. */
  lemma MergeStepKnownId(acc: Obj<seq<Item>>, catId: string, items: seq<Item>)
    requires Get(acc, catId).Some?
    ensures
      var existing := Get(acc, catId).value;
      var newItems := FreshItems(items, GifIds(existing));
      (if |newItems| > 0 then Put(acc, catId, existing + newItems) else acc)
      == Put(acc, catId, MergeItemList(Get(acc, catId), items))
  {
    var existing := Get(acc, catId).value;
    var newItems := FreshItems(items, GifIds(existing));
    assert MergeItemList(Get(acc, catId), items) == existing + newItems;
    if |newItems| == 0 {
      assert existing + newItems == existing;
      PutExisting(acc, catId, existing);
    }
  }

  /** `dataManager.js` lines 55-69: every incoming category id gets `MergeItemList` of its
      items. */
  function MergeItemsData(current: Obj<seq<Item>>, incoming: Obj<seq<Item>>): (r: Obj<seq<Item>>)
    ensures Keys(r) == Keys(current) + Keys(incoming)
    ensures forall k | k in Keys(current) && k !in Keys(incoming) :: Get(r, k) == Get(current, k)
    ensures forall k | k !in Keys(current) && k in Keys(incoming) :: Get(r, k) == Get(incoming, k)
    ensures forall k | k in Keys(current) && k in Keys(incoming) ::
      Get(r, k) == Some(Get(current, k).value + FreshItems(Get(incoming, k).value, GifIds(Get(current, k).value)))
    ensures |current| <= |r| && forall i | 0 <= i < |current| :: r[i].0 == current[i].0
  {
    AssignSpec(current, incoming, MergeItemList);
    forall k | k !in Keys(current) && k in Keys(incoming)
      ensures MergeItemList(Get(current, k), Get(incoming, k).value) == Get(incoming, k).value
    {
      var v := Get(incoming, k).value;
      assert GifIds([]) == {};
      assert [] + FreshItems(v, {}) == v;
    }
    Assign(current, incoming, MergeItemList)
  }

  // ----- GIF registry -----

  /** The value a spread takes on a clash: the later one. */
  function Incoming(previous: Option<Json>, next: Json): Json {
    next
  }

  /** `dataManager.js` line 74: `{ ...current.gifs, ...incoming.gifs }`. */
  function MergeGifs(current: Obj<Json>, incoming: Obj<Json>): (r: Obj<Json>)
    ensures Keys(r) == Keys(current) + Keys(incoming)
    ensures forall k | k in Keys(incoming) :: Get(r, k) == Get(incoming, k)
    ensures forall k | k !in Keys(incoming) :: Get(r, k) == Get(current, k)
  {
    AssignSpec(current, incoming, Incoming);
    Assign(current, incoming, Incoming)
  }

  // ----- The whole snapshot -----

  /** `mergeData(incoming)`, with the snapshot `loadData()` would return passed in as `current`. */
  function Merge(current: Snapshot, incoming: Snapshot): (r: Snapshot)
    ensures current.categories <= r.categories
    ensures Ids(r.categories) == Ids(current.categories) + Ids(incoming.categories)
    ensures Keys(r.itemsData) == Keys(current.itemsData) + Keys(incoming.itemsData)
    ensures forall k | k in Keys(current.itemsData) :: Get(current.itemsData, k).value <= Get(r.itemsData, k).value
    ensures forall k | k in Keys(incoming.itemsData) ::
      GifIds(Get(incoming.itemsData, k).value) <= GifIds(Get(r.itemsData, k).value)
    ensures Keys(r.gifs) == Keys(current.gifs) + Keys(incoming.gifs)
    ensures forall k | k in Keys(incoming.gifs) :: Get(r.gifs, k) == Get(incoming.gifs, k)
  {
    var cats := MergeCategories(current.categories, incoming.categories);
    assert current.categories == cats[..|current.categories|];
    var items := MergeItemsData(current.itemsData, incoming.itemsData);
    forall k | k in Keys(incoming.itemsData)
      ensures GifIds(Get(incoming.itemsData, k).value) <= GifIds(Get(items, k).value)
    {
      var v := Get(incoming.itemsData, k).value;
      if k in Keys(current.itemsData) {
        var base := Get(current.itemsData, k).value;
        AppendFacts(base, FreshItems(v, GifIds(base)));
      }
    }
    Snapshot(cats, items, MergeGifs(current.gifs, incoming.gifs))
  }

  /** Merging never loses a category nor shortens the item list of a current category. */
  lemma MergeGrows(current: Snapshot, incoming: Snapshot)
    ensures |current.categories| <= |Merge(current, incoming).categories|
    ensures forall k | k in Keys(current.itemsData) ::
      |Get(current.itemsData, k).value| <= |Get(Merge(current, incoming).itemsData, k).value|
  {
    var items := Merge(current, incoming).itemsData;
    forall k | k in Keys(current.itemsData)
      ensures |Get(current.itemsData, k).value| <= |Get(items, k).value|
    {
      if k in Keys(incoming.itemsData) {
        var v := Get(current.itemsData, k).value;
        assert Get(items, k) == Some(v + FreshItems(Get(incoming.itemsData, k).value, GifIds(v)));
      }
    }
  }

  /** Items that all carry gifIds already present leave nothing added. */
  lemma NothingFresh(items: seq<Item>)
    ensures FreshItems(items, GifIds(items)) == []
  {
  }

  /** Incoming categories whose ids are all current add nothing. */
  lemma MergeCategoriesKnownIds(current: seq<Category>, incoming: seq<Category>)
    requires Ids(incoming) <= Ids(current)
    ensures MergeCategories(current, incoming) == current
  {
  }

  /** Merging a snapshot with itself gives it back unchanged. */
  lemma MergeIdempotent(s: Snapshot)
    ensures Merge(s, s) == s
  {
    MergeCategoriesKnownIds(s.categories, s.categories);
    forall i | 0 <= i < |s.itemsData|
      ensures Get(s.itemsData, s.itemsData[i].0) == Some(s.itemsData[i].1)
      ensures MergeItemList(Some(s.itemsData[i].1), s.itemsData[i].1) == s.itemsData[i].1
    {
      GetAt(s.itemsData, i);
      NothingFresh(s.itemsData[i].1);
    }
    AssignUnchanged(s.itemsData, s.itemsData, MergeItemList);
    forall i | 0 <= i < |s.gifs| ensures Get(s.gifs, s.gifs[i].0) == Some(s.gifs[i].1) {
      GetAt(s.gifs, i);
    }
    AssignUnchanged(s.gifs, s.gifs, Incoming);
  }

  /** Merging into an empty library adopts the incoming snapshot exactly when its
      category ids are distinct; otherwise later duplicates are dropped. */
  lemma MergeIntoEmpty(s: Snapshot)
    ensures Merge(Empty, s) == s <==> DistinctIds(s.categories)
  {
    MergeCategoriesIntoEmpty(s.categories);
    MergeItemsIntoEmpty(s.itemsData);
    AssignAppends([], s.gifs, Incoming);
    assert [] + s.gifs == s.gifs;
  }

  lemma MergeCategoriesIntoEmpty(cs: seq<Category>)
    ensures MergeCategories([], cs) == FirstOccurrences(cs)
  {
    MergeCategoriesReference([], cs);
    assert Ids([]) == {};
  }

  lemma MergeItemsIntoEmpty(e: Obj<seq<Item>>)
    ensures MergeItemsData([], e) == e
  {
    forall i | 0 <= i < |e| ensures MergeItemList(None, e[i].1) == e[i].1 {
      assert GifIds([]) == {};
    }
    AssignAppends([], e, MergeItemList);
    assert [] + e == e;
  }

  /** Merging in an empty snapshot changes nothing. */
  lemma MergeWithEmpty(s: Snapshot)
    ensures Merge(s, Empty) == s
  {
  }

  /** The value an object holds under a key is one of its entries. */
  lemma ItemsOkAt(e: Obj<seq<Item>>, k: string)
    requires forall i | 0 <= i < |e| :: ItemsOk(e[i].1)
    requires k in Keys(e)
    ensures ItemsOk(Get(e, k).value)
  {
    GetFound(e, k);
  }

  /** Merging two snapshots whose required fields are all non-empty gives such a snapshot. */
  lemma MergePreservesWellFormed(current: Snapshot, incoming: Snapshot)
    requires WellFormed(current) && WellFormed(incoming)
    ensures WellFormed(Merge(current, incoming))
  {
    var r := Merge(current, incoming);
    forall c | c in r.categories ensures CategoryOk(c) {
      var j :| 0 <= j < |r.categories| && r.categories[j] == c;
      if j < |current.categories| {
        assert c in current.categories;
      }
    }
    forall j | 0 <= j < |r.itemsData| ensures ItemsOk(r.itemsData[j].1) {
      var k := r.itemsData[j].0;
      GetAt(r.itemsData, j);
      if k in Keys(current.itemsData) {
        ItemsOkAt(current.itemsData, k);
      }
      if k in Keys(incoming.itemsData) {
        ItemsOkAt(incoming.itemsData, k);
      }
    }
  }

  /** An incoming category whose id is current is skipped. */
  lemma MergeCategoriesSameId(cat: Category, other: Category)
    requires other.id == cat.id
    ensures MergeCategories([cat], [other]) == [cat]
  {
    IdsOne(cat);
    IdsOne(other);
    MergeCategoriesKnownIds([cat], [other]);
  }

  /** Without incoming GIF metadata the current metadata is kept as it is. */
  lemma MergeGifsNoIncoming(current: Obj<Json>)
    ensures MergeGifs(current, []) == current
  {
  }

  /** The ids of a one-category list. */
  lemma IdsOne(c: Category)
    ensures Ids([c]) == {c.id}
  {
    assert [c][0] == c;
  }

  /** Items merge within one category: `again` repeats the gifId of `lol` and is dropped,
      while `hey` with the same gifId in a new category is kept. */
  lemma MergeItemsScenario(k1: string, k2: string, lol: Item, wow: Item, again: Item, hey: Item)
    requires k1 != k2
    requires again.gifId == lol.gifId && wow.gifId != lol.gifId
    ensures MergeItemsData([(k1, [lol])], [(k1, [wow, again]), (k2, [hey])])
         == [(k1, [lol, wow]), (k2, [hey])]
  {
    AssignPair(k1, k2, [lol], [wow, again], [hey], MergeItemList);
    MergeItemListScenario(lol, wow, again, hey);
  }

  lemma MergeItemListScenario(lol: Item, wow: Item, again: Item, hey: Item)
    requires again.gifId == lol.gifId && wow.gifId != lol.gifId
    ensures MergeItemList(Some([lol]), [wow, again]) == [lol, wow]
    ensures MergeItemList(None, [hey]) == [hey]
  {
    FreshItemsPair(lol, wow, again);
    FreshItemsNone(hey);
  }

  lemma FreshItemsPair(lol: Item, wow: Item, again: Item)
    requires again.gifId == lol.gifId && wow.gifId != lol.gifId
    ensures MergeItemList(Some([lol]), [wow, again]) == [lol, wow]
  {
    assert GifIds([lol]) == {lol.gifId};
    var ex := {lol.gifId};
    assert FreshItems([again], ex) == [] by {
      assert [again][1..] == [];
    }
    assert FreshItems([wow, again], ex) == [wow] by {
      assert [wow, again][1..] == [again];
    }
  }

  lemma FreshItemsNone(hey: Item)
    ensures MergeItemList(None, [hey]) == [hey]
  {
    assert GifIds([]) == {};
    assert [hey][1..] == [];
  }
}

=== FILE: objects.dfy ===
/** JavaScript plain objects as ordered lists of properties.

    A property list keeps the enumeration order that `Object.entries` and object spread
    observe; `Obj` adds the invariant every JavaScript object has: a property name occurs
    at most once. */
module Objects {
  import opened Common

  type Entries<V> = seq<(string, V)>

  function Keys<V>(e: Entries<V>): set<string> {
    set i | 0 <= i < |e| :: e[i].0
  }

  predicate UniqueKeys<V>(e: Entries<V>) {
    forall i, j | 0 <= i < j < |e| :: e[i].0 != e[j].0
  }

  type Obj<V> = e: Entries<V> | UniqueKeys(e) witness []

  /** `Object.values(o)`, in enumeration order. */
  function Values<V>(e: Entries<V>): (vs: seq<V>)
    ensures |vs| == |e| && forall i | 0 <= i < |e| :: vs[i] == e[i].1
  {
    if e == [] then [] else [e[0].1] + Values(e[1..])
  }

  /** The keys of a non-empty list: its first key and the keys of the rest. */
  lemma KeysCons<V>(e: Entries<V>)
    requires e != []
    ensures Keys(e) == {e[0].0} + Keys(e[1..])
  {
    forall x | x in Keys(e) ensures x in {e[0].0} + Keys(e[1..]) {
      var i :| 0 <= i < |e| && e[i].0 == x;
      if i > 0 { assert e[1..][i - 1].0 == x; }
    }
    forall x | x in Keys(e[1..]) ensures x in Keys(e) {
      var i :| 0 <= i < |e[1..]| && e[1..][i].0 == x;
      assert e[i + 1].0 == x;
    }
  }

  /** Property read `o[k]`; `None` is `undefined`. The first entry named `k` is found. */
  function Get<V>(e: Entries<V>, k: string): (r: Option<V>)
    ensures r.Some? <==> k in Keys(e)
  {
    if e == [] then None
    else if e[0].0 == k then Some(e[0].1)
    else KeysCons(e); Get(e[1..], k)
  }

  /** A value that is read is the value of some entry of that name. */
  lemma {:induction false} GetFound<V>(e: Entries<V>, k: string)
    requires Get(e, k).Some?
    ensures exists i | 0 <= i < |e| :: e[i] == (k, Get(e, k).value)
  {
    if e[0].0 != k {
      GetFound(e[1..], k);
      var i :| 0 <= i < |e[1..]| && e[1..][i] == (k, Get(e, k).value);
      assert e[i + 1] == e[1..][i];
    }
  }

  /** In an object, the lookup of a listed key finds that entry. */
  lemma {:induction false} GetAt<V>(e: Obj<V>, i: nat)
    requires i < |e|
    ensures Get(e, e[i].0) == Some(e[i].1)
  {
    if i > 0 {
      assert e[0].0 != e[i].0;
      var t: Obj<V> := e[1..];
      GetAt(t, i - 1);
    }
  }

  /** Assignment `o[k] = v`: an existing property keeps its place, a new one goes last. */
  function Put<V>(e: Entries<V>, k: string, v: V): (r: Entries<V>)
    ensures Keys(r) == Keys(e) + {k}
    ensures Get(r, k) == Some(v)
    ensures forall k' | k' != k :: Get(r, k') == Get(e, k')
    ensures |r| == if k in Keys(e) then |e| else |e| + 1
    ensures forall i | 0 <= i < |e| :: r[i].0 == e[i].0
    ensures k !in Keys(e) ==> r == e + [(k, v)]
    ensures UniqueKeys(e) ==> UniqueKeys(r)
  {
    if e == [] then KeysCons([(k, v)]); [(k, v)]
    else if e[0].0 == k then
      KeysCons(e); KeysCons([(k, v)] + e[1..]); assert ([(k, v)] + e[1..])[1..] == e[1..];
      [(k, v)] + e[1..]
    else
      var t := Put(e[1..], k, v);
      KeysCons(e); KeysCons([e[0]] + t); assert ([e[0]] + t)[1..] == t;
      [e[0]] + t
  }

  /** Assigning the value a property already has changes nothing. */
  lemma {:induction false} PutExisting<V>(e: Entries<V>, k: string, v: V)
    requires Get(e, k) == Some(v)
    ensures Put(e, k, v) == e
  {
    if e != [] && e[0].0 != k {
      PutExisting(e[1..], k, v);
    }
  }

  /** A second assignment to the same key overrides the first. */
  lemma {:induction false} PutTwice<V>(e: Entries<V>, k: string, v: V, w: V)
    ensures Put(Put(e, k, v), k, w) == Put(e, k, w)
  {
    if e != [] && e[0].0 != k {
      PutTwice(e[1..], k, v, w);
    }
  }

  /** Assigns the properties of `inc`, in its order, onto `acc`; each new value is
      `f(value already there, incoming value)`. With `f` returning the incoming value
      this is the spread `{...acc, ...inc}`. */
  function Assign<V>(acc: Obj<V>, inc: Obj<V>, f: (Option<V>, V) -> V): (r: Obj<V>)
    ensures Keys(r) == Keys(acc) + Keys(inc)
    ensures |acc| <= |r| && forall i | 0 <= i < |acc| :: r[i].0 == acc[i].0
    decreases |inc|
  {
    if inc == [] then acc
    else
      var k0 := inc[0].0;
      var rest: Obj<V> := inc[1..];
      var next: Obj<V> := Put(acc, k0, f(Get(acc, k0), inc[0].1));
      KeysCons(inc);
      Assign(next, rest, f)
  }

  /** One step of `Assign`: the first incoming property is assigned, then the rest. */
  lemma AssignStep<V>(acc: Obj<V>, inc: Obj<V>, f: (Option<V>, V) -> V)
    requires inc != []
    ensures UniqueKeys(Put(acc, inc[0].0, f(Get(acc, inc[0].0), inc[0].1)))
    ensures Assign(acc, inc, f) == Assign(Put(acc, inc[0].0, f(Get(acc, inc[0].0), inc[0].1)), inc[1..], f)
  {
  }

  /** Assigning to the first key replaces its value in place. */
  lemma PutHead<V>(e: Entries<V>, v: V)
    requires e != []
    ensures Put(e, e[0].0, v) == [(e[0].0, v)] + e[1..]
  {
  }

  /** `Assign` onto a one-property object of that property and one new one. */
  lemma PutSecond<V>(k1: string, k2: string, x: V, y: V)
    requires k1 != k2
    ensures Get([(k1, x)], k2) == None
    ensures Put([(k1, x)], k2, y) == [(k1, x), (k2, y)]
  {
    assert k2 !in Keys([(k1, x)]);
  }

  /** `Assign` of two properties, the first already present: it is combined in place. */
  lemma AssignPairHead<V>(k1: string, k2: string, a: V, b: V, c: V, f: (Option<V>, V) -> V)
    requires k1 != k2
    ensures UniqueKeys([(k1, b), (k2, c)])
    ensures Assign([(k1, a)], [(k1, b), (k2, c)], f) == Assign([(k1, f(Some(a), b))], [(k2, c)], f)
  {
    var acc: Obj<V> := [(k1, a)];
    var inc: Obj<V> := [(k1, b), (k2, c)];
    assert inc[1..] == [(k2, c)];
    assert Get(acc, k1) == Some(a);
    PutHead(acc, f(Some(a), b));
    assert acc[1..] == [];
    AssignStep(acc, inc, f);
  }

  /** `Assign` of one new property: it is appended. */
  lemma AssignPairTail<V>(k1: string, k2: string, x: V, c: V, f: (Option<V>, V) -> V)
    requires k1 != k2
    ensures Assign([(k1, x)], [(k2, c)], f) == [(k1, x), (k2, f(None, c))]
  {
    PutSecond(k1, k2, x, f(None, c));
    AssignStep([(k1, x)], [(k2, c)], f);
  }

  lemma AssignPair<V>(k1: string, k2: string, a: V, b: V, c: V, f: (Option<V>, V) -> V)
    requires k1 != k2
    ensures UniqueKeys([(k1, b), (k2, c)])
    ensures Assign([(k1, a)], [(k1, b), (k2, c)], f) == [(k1, f(Some(a), b)), (k2, f(None, c))]
  {
    AssignPairHead(k1, k2, a, b, c, f);
    AssignPairTail(k1, k2, f(Some(a), b), c, f);
  }

  /** The first key of an object does not occur again in the rest. */
  lemma FirstKeyNotInRest<V>(e: Obj<V>)
    requires e != []
    ensures e[0].0 !in Keys(e[1..])
  {
  }

  /** What `Assign` leaves under one key: the combined value when `inc` has the key,
      the value already in `acc` otherwise. */
  lemma {:induction false} AssignGet<V>(acc: Obj<V>, inc: Obj<V>, f: (Option<V>, V) -> V, k: string)
    ensures k in Keys(inc) ==> Get(Assign(acc, inc, f), k) == Some(f(Get(acc, k), Get(inc, k).value))
    ensures k !in Keys(inc) ==> Get(Assign(acc, inc, f), k) == Get(acc, k)
    decreases |inc|
  {
    if inc != [] {
      var k0 := inc[0].0;
      var rest: Obj<V> := inc[1..];
      var next: Obj<V> := Put(acc, k0, f(Get(acc, k0), inc[0].1));
      KeysCons(inc);
      FirstKeyNotInRest(inc);
      AssignGet(next, rest, f, k);
      if k != k0 {
        assert Get(inc, k) == Get(rest, k);
      }
    }
  }

  /** `AssignGet` for every key at once. */
  lemma AssignSpec<V>(acc: Obj<V>, inc: Obj<V>, f: (Option<V>, V) -> V)
    ensures forall k | k in Keys(inc) :: Get(Assign(acc, inc, f), k) == Some(f(Get(acc, k), Get(inc, k).value))
    ensures forall k | k !in Keys(inc) :: Get(Assign(acc, inc, f), k) == Get(acc, k)
  {
    forall k: string
      ensures k in Keys(inc) ==> Get(Assign(acc, inc, f), k) == Some(f(Get(acc, k), Get(inc, k).value))
      ensures k !in Keys(inc) ==> Get(Assign(acc, inc, f), k) == Get(acc, k)
    {
      AssignGet(acc, inc, f, k);
    }
  }

  /** Assigning values every key already holds, where `f` keeps such a value, changes nothing. */
  lemma {:induction false} AssignUnchanged<V>(acc: Obj<V>, inc: Obj<V>, f: (Option<V>, V) -> V)
    requires forall i | 0 <= i < |inc| :: Get(acc, inc[i].0) == Some(inc[i].1)
    requires forall i | 0 <= i < |inc| :: f(Some(inc[i].1), inc[i].1) == inc[i].1
    ensures Assign(acc, inc, f) == acc
    decreases |inc|
  {
    if inc != [] {
      PutExisting(acc, inc[0].0, inc[0].1);
      var rest: Obj<V> := inc[1..];
      assert forall i | 0 <= i < |rest| :: rest[i] == inc[i + 1];
      AssignUnchanged(acc, rest, f);
    }
  }

  lemma SplitFirst<T>(a: seq<T>, b: seq<T>)
    requires b != []
    ensures (a + [b[0]]) + b[1..] == a + b
  {
  }

  /** Assigning only new keys, where `f` keeps a value that had no predecessor, appends them. */
  lemma {:induction false} AssignAppends<V>(acc: Obj<V>, inc: Obj<V>, f: (Option<V>, V) -> V)
    requires Keys(acc) !! Keys(inc)
    requires forall i | 0 <= i < |inc| :: f(None, inc[i].1) == inc[i].1
    ensures Assign(acc, inc, f) == acc + inc
    decreases |inc|
  {
    if inc != [] {
      KeysCons(inc);
      FirstKeyNotInRest(inc);
      var k0 := inc[0].0;
      assert k0 !in Keys(acc);
      assert Get(acc, k0) == None;
      assert f(None, inc[0].1) == inc[0].1;
      var next: Obj<V> := Put(acc, k0, inc[0].1);
      assert next == acc + [inc[0]];
      var rest: Obj<V> := inc[1..];
      assert Keys(next) == Keys(acc) + {k0};
      assert Keys(next) !! Keys(rest);
      assert forall i | 0 <= i < |rest| :: f(None, rest[i].1) == rest[i].1 by {
        forall i | 0 <= i < |rest| ensures f(None, rest[i].1) == rest[i].1 {
          assert rest[i] == inc[i + 1];
        }
      }
      assert Assign(acc, inc, f) == Assign(next, rest, f);
      AssignAppends(next, rest, f);
      SplitFirst(acc, inc);
    }
  }
}

=== FILE: store.dfy ===
/** The persisted library file and its backups. `parse` stands for reading a file as
    UTF-8 and `JSON.parse` (`None` when it throws); `stringify` for `JSON.stringify`. */
module Store {
  import opened Common
  import opened Strings
  import opened Js
  import opened Data
  import opened Validation

  /** `loadData()`: the parsed data file, or the empty snapshot when the file is absent
      or does not parse. `file` is the data file's contents, `None` when it is absent. */
  function Load(file: Option<Bytes>, parse: Bytes -> Option<Json>): (j: Json)
    ensures file.None? ==> j == EmptyDoc
    ensures file.Some? && parse(file.value).None? ==> j == EmptyDoc
    ensures file.Some? && parse(file.value).Some? ==> j == parse(file.value).value
  {
    match file
    case None => EmptyDoc
    case Some(raw) =>
      match parse(raw)
      case Some(v) => v
      case None => EmptyDoc
  }

  /** `saveData(data)`: the new contents of the data file. */
  function Save(data: Json, stringify: Json -> Bytes): (file: Option<Bytes>)
    ensures file.Some?
  {
    Some(stringify(data))
  }

  /** Whatever the file holds, loading yields either what was stored or a document the
      import validator accepts and that reads as the empty snapshot. */
  lemma LoadFallback(file: Option<Bytes>, parse: Bytes -> Option<Json>)
    ensures Load(file, parse) == EmptyDoc || (file.Some? && parse(file.value) == Some(Load(file, parse)))
    ensures Load(file, parse) == EmptyDoc ==> Validate(Load(file, parse)) == Accepted && Decode(Load(file, parse)) == Some(Empty)
  {
    if Load(file, parse) == EmptyDoc {
      EmptyDocAccepted();
      DecodeEmptyDoc();
    }
  }

  /** A saved document loads back unchanged whenever parsing undoes stringifying. */
  lemma SaveLoad(data: Json, parse: Bytes -> Option<Json>, stringify: Json -> Bytes)
    requires parse(stringify(data)) == Some(data)
    ensures Load(Save(data, stringify), parse) == data
  {
  }

  /** The `/[:.]/g` replacement applied to the ISO timestamp. */
  function Stamp(iso: string): (r: string)
    ensures |r| == |iso|
    ensures forall i | 0 <= i < |r| :: r[i] != ':' && r[i] != '.'
    ensures forall i | 0 <= i < |iso| && iso[i] != ':' && iso[i] != '.' :: r[i] == iso[i]
    ensures forall i | 0 <= i < |iso| && (iso[i] == ':' || iso[i] == '.') :: r[i] == '-'
  {
    ReplaceEach(iso, {':', '.'}, '-')
  }

  /** The backup file name for a timestamp. */
  function BackupName(iso: string): (name: string)
    ensures StartsWith(name, "backup_") && EndsWith(name, ".json")
    ensures |name| == |iso| + 12
    ensures name[7..|iso| + 7] == Stamp(iso)
  {
    var name := "backup_" + Stamp(iso) + ".json";
    assert name[..7] == "backup_";
    assert name[7..|iso| + 7] == Stamp(iso);
    assert name[|name| - 5..] == ".json";
    name
  }

  /** The stamp of a backup name has no `:` and no `.`: the only `.` of the name is the
      one before `json`. */
  lemma BackupNameOneDot(iso: string)
    ensures forall i | 0 <= i < |BackupName(iso)| && BackupName(iso)[i] == '.' :: i == |iso| + 7
  {
    var name := BackupName(iso);
    var s := Stamp(iso);
    assert name == "backup_" + s + ".json";
    forall i | 0 <= i < |name| && name[i] == '.' ensures i == |iso| + 7 {
      if i >= 7 + |iso| {
        assert name[i] == ".json"[i - 7 - |iso|];
      }
    }
  }

  /** `createBackup()`: a backup file of that name holding the loaded data. */
  function CreateBackup(iso: string, file: Option<Bytes>, parse: Bytes -> Option<Json>, stringify: Json -> Bytes): (r: (string, Bytes))
    ensures r.0 == BackupName(iso)
    ensures r.1 == stringify(Load(file, parse))
    ensures file.None? ==> r.1 == stringify(EmptyDoc)
  {
    (BackupName(iso), stringify(Load(file, parse)))
  }

  /** Restoring a backup gives back the data as it was loaded when the backup was made. */
  lemma BackupRestores(iso: string, file: Option<Bytes>, parse: Bytes -> Option<Json>, stringify: Json -> Bytes)
    requires parse(stringify(Load(file, parse))) == Some(Load(file, parse))
    ensures Load(Some(CreateBackup(iso, file, parse, stringify).1), parse) == Load(file, parse)
  {
  }
}

=== FILE: strings.dfy ===
/** The few `String.prototype` operations the data layer relies on. */
module Strings {
  import opened Common

  /** `s.startsWith(prefix)` */
  predicate StartsWith(s: string, prefix: string) {
    |prefix| <= |s| && s[..|prefix|] == prefix
  }

  /** `s.endsWith(suffix)` */
  predicate EndsWith(s: string, suffix: string) {
    |suffix| <= |s| && s[|s| - |suffix|..] == suffix
  }

  /** `pat` occurs in `s` starting at position `i`. */
  predicate OccursAt(s: string, pat: string, i: nat) {
    i + |pat| <= |s| && s[i..i + |pat|] == pat
  }

  /** `s.indexOf(pat, from)`, with `None` for -1. */
  function IndexOfFrom(s: string, pat: string, from: nat): (r: Option<nat>)
    ensures r.Some? ==> from <= r.value && OccursAt(s, pat, r.value)
    ensures forall i: nat | from <= i && (r.None? || i < r.value) :: !OccursAt(s, pat, i)
    decreases |s| - from
  {
    if from + |pat| > |s| then None
    else if s[from..from + |pat|] == pat then Some(from)
    else IndexOfFrom(s, pat, from + 1)
  }

  /** `s.indexOf(pat)`: the first occurrence. */
  function IndexOf(s: string, pat: string): Option<nat> {
    IndexOfFrom(s, pat, 0)
  }

  /** `s.replace(pat, rep)` with a string pattern: only the FIRST occurrence is replaced. */
  function ReplaceFirst(s: string, pat: string, rep: string): (r: string)
    ensures IndexOf(s, pat).None? ==> r == s
    ensures IndexOf(s, pat).Some? ==> |r| == |s| - |pat| + |rep|
  {
    match IndexOf(s, pat)
    case None => s
    case Some(i) => s[..i] + rep + s[i + |pat|..]
  }

  /** `s.replace(/[...]/g, by)`: every character of `chars` becomes `sub`. */
  function ReplaceEach(s: string, chars: set<char>, sub: char): (r: string)
    ensures |r| == |s|
    ensures forall i | 0 <= i < |s| :: r[i] == (if s[i] in chars then sub else s[i])
  {
    if s == [] then []
    else [if s[0] in chars then sub else s[0]] + ReplaceEach(s[1..], chars, sub)
  }
}

=== FILE: validation.dfy ===
/** The structural check an imported document must pass before it is trusted
    (`validateImportedData`), with JavaScript's truthiness and `typeof` rules. */
module Validation {
  import opened Common
  import opened Objects
  import opened Js
  import opened Data

  /** The check returns true, returns false, or throws a TypeError: reading a property of
      a `null` category or item, or `Object.entries(null)` on a `null` itemsData. */
  datatype Verdict = Accepted | Rejected | Threw

  /** `!category.id || !category.name || !category.key || !category.color` fails the check. */
  function CheckCategory(c: Json): (v: Verdict)
    ensures v == Threw <==> c.JNull?
    ensures v == Accepted <==> CategoryAcceptable(c)
  {
    if c.JNull? then Threw
    else if TruthyProp(Prop(c, "id")) && TruthyProp(Prop(c, "name"))
         && TruthyProp(Prop(c, "key")) && TruthyProp(Prop(c, "color")) then Accepted
    else Rejected
  }

  /** `!item.code || !item.gifId` fails the check. */
  function CheckItem(it: Json): (v: Verdict)
    ensures v == Threw <==> it.JNull?
    ensures v == Accepted <==> ItemAcceptable(it)
  {
    if it.JNull? then Threw
    else if TruthyProp(Prop(it, "code")) && TruthyProp(Prop(it, "gifId")) then Accepted
    else Rejected
  }

  /** A `for ... of` loop that stops at the first element that fails or throws. */
  function CheckAll(vs: seq<Json>, check: Json -> Verdict): (v: Verdict)
    ensures v == Accepted <==> forall i | 0 <= i < |vs| :: check(vs[i]) == Accepted
    ensures v != Accepted ==> exists i | 0 <= i < |vs| :: check(vs[i]) == v && StopsAt(vs, check, i)
  {
    if vs == [] then Accepted
    else if check(vs[0]) != Accepted then check(vs[0])
    else
      var v := CheckAll(vs[1..], check);
      assert forall i | 1 <= i < |vs| :: vs[i] == vs[1..][i - 1];
      CheckAllStep(vs, check, v);
      v
  }

  /** The step of `CheckAll` past an element that passed: the element that stops the
      rest of the loop stops the whole loop. */
  lemma CheckAllStep(vs: seq<Json>, check: Json -> Verdict, v: Verdict)
    requires vs != [] && check(vs[0]) == Accepted
    requires v != Accepted ==> exists i | 0 <= i < |vs[1..]| :: check(vs[1..][i]) == v && StopsAt(vs[1..], check, i)
    ensures v != Accepted ==> exists i | 0 <= i < |vs| :: check(vs[i]) == v && StopsAt(vs, check, i)
  {
    if v != Accepted {
      var i :| 0 <= i < |vs[1..]| && check(vs[1..][i]) == v && StopsAt(vs[1..], check, i);
      assert check(vs[i + 1]) == v;
      assert StopsAt(vs, check, i + 1) by {
        forall j | 0 <= j < i + 1 ensures check(vs[j]) == Accepted {
          if j > 0 {
            assert vs[j] == vs[1..][j - 1];
          }
        }
      }
    }
  }

  /** Every element before index `i` passed, so the loop reaches element `i`. */
  predicate StopsAt(vs: seq<Json>, check: Json -> Verdict, i: nat) {
    i <= |vs| && forall j | 0 <= j < i :: check(vs[j]) == Accepted
  }

  /** One value of `itemsData`: `Array.isArray(items)` and then every item. */
  function CheckItemList(v: Json): (r: Verdict)
    ensures r == Accepted <==> ItemListAcceptable(v)
    ensures r == Threw <==> ListThrows(v)
  {
    if !v.JArr? then Rejected
    else
      var r := CheckAll(v.elems, CheckItem);
      FirstFailure(v.elems, CheckItem, ItemAcceptable, IsNull);
      r
  }

  predicate IsNull(v: Json) {
    v.JNull?
  }

  /** The loop over `vs` meets an element that makes it throw before any that it
      rejects: every element before index `i` is good, and element `i` throws. */
  predicate ThrowsFirst(vs: seq<Json>, good: Json -> bool, throws: Json -> bool) {
    exists i | 0 <= i < |vs| :: throws(vs[i]) && forall j | 0 <= j < i :: good(vs[j])
  }

  /** An array of items whose first failing item is a `null`. */
  predicate ListThrows(v: Json) {
    v.JArr? && ThrowsFirst(v.elems, ItemAcceptable, IsNull)
  }

  /** Which element stops a `CheckAll` loop decides what it returns. */
  lemma FirstFailure(vs: seq<Json>, check: Json -> Verdict, good: Json -> bool, throws: Json -> bool)
    requires forall x :: check(x) == Accepted <==> good(x)
    requires forall x :: check(x) == Threw <==> throws(x)
    ensures CheckAll(vs, check) == Accepted <==> forall x | x in vs :: good(x)
    ensures CheckAll(vs, check) == Threw <==> ThrowsFirst(vs, good, throws)
  {
    var v := CheckAll(vs, check);
    if v == Accepted {
      forall x | x in vs ensures good(x) {
        var i :| 0 <= i < |vs| && vs[i] == x;
      }
    } else {
      var i :| 0 <= i < |vs| && check(vs[i]) == v && StopsAt(vs, check, i);
      if ThrowsFirst(vs, good, throws) {
        var k :| 0 <= k < |vs| && throws(vs[k]) && forall j | 0 <= j < k :: good(vs[j]);
        if k < i {
          assert false;
        } else if i < k {
          assert false;
        }
      }
    }
  }

  /** `Object.entries(itemsData)`: throws on `null`; an array enumerates its elements. */
  function CheckItemsData(v: Json): (r: Verdict)
    requires TypeofObject(Some(v))
    ensures r == Accepted <==> !v.JNull? && forall w | w in EntryValues(v) :: ItemListAcceptable(w)
    ensures r == Threw <==> v.JNull? || ThrowsFirst(EntryValues(v), ItemListAcceptable, ListThrows)
  {
    FirstFailure(EntryValues(v), CheckItemList, ItemListAcceptable, ListThrows);
    match v
    case JNull => Threw
    case JArr(vs) => CheckAll(vs, CheckItemList)
    case JObj(fs) => CheckAll(Values(fs), CheckItemList)
  }

  /** `validateImportedData(data)`, with its checks in the source's order. */
  function Validate(data: Json): (r: Verdict)
    ensures r != Rejected ==> Shaped(data)
    ensures r == Threw <==> (Shaped(data) && (CategoryThrows(data) || (CategoriesAcceptable(data) && ItemsDataThrows(data))))
  {
    if !Truthy(data) then Rejected
    else
      var categories := Prop(data, "categories");
      var itemsData := Prop(data, "itemsData");
      var gifs := Prop(data, "gifs");
      if !(IsArray(categories) && TypeofObject(itemsData) && (!TruthyProp(gifs) || TypeofObject(gifs))) then
        Rejected
      else
        var v := CheckAll(categories.value.elems, CheckCategory);
        FirstFailure(categories.value.elems, CheckCategory, CategoryAcceptable, IsNull);
        if v != Accepted then v else CheckItemsData(itemsData.value)
  }

  /** The categories loop reaches a `null` before any category it rejects. */
  predicate CategoryThrows(data: Json)
    requires Shaped(data)
  {
    ThrowsFirst(Prop(data, "categories").value.elems, CategoryAcceptable, IsNull)
  }

  predicate CategoriesAcceptable(data: Json)
    requires Shaped(data)
  {
    forall c | c in Prop(data, "categories").value.elems :: CategoryAcceptable(c)
  }

  /** `Object.entries(null)`, or the items loop reaching a `null` item before any value
      or item it rejects. */
  predicate ItemsDataThrows(data: Json)
    requires Shaped(data)
  {
    var v := Prop(data, "itemsData").value;
    v.JNull? || ThrowsFirst(EntryValues(v), ItemListAcceptable, ListThrows)
  }

  /** The tests before the loops: `data` is an object (a truthy value other than an
      object has none of the properties), `categories` an array, `itemsData` of type
      object, and `gifs` falsy or of type object. */
  predicate Shaped(data: Json) {
    && data.JObj?
    && IsArray(Prop(data, "categories"))
    && TypeofObject(Prop(data, "itemsData"))
    && (!TruthyProp(Prop(data, "gifs")) || TypeofObject(Prop(data, "gifs")))
  }

  // ----- The documented acceptance condition, stated without the loops -----

  predicate CategoryAcceptable(c: Json) {
    c.JObj? && TruthyProp(Prop(c, "id")) && TruthyProp(Prop(c, "name"))
    && TruthyProp(Prop(c, "key")) && TruthyProp(Prop(c, "color"))
  }

  predicate ItemAcceptable(it: Json) {
    it.JObj? && TruthyProp(Prop(it, "code")) && TruthyProp(Prop(it, "gifId"))
  }

  predicate ItemListAcceptable(v: Json) {
    v.JArr? && forall it | it in v.elems :: ItemAcceptable(it)
  }

  /** The values `Object.entries` enumerates for an array or an object. */
  function EntryValues(v: Json): seq<Json> {
    match v
    case JArr(vs) => vs
    case JObj(fs) => Values(fs)
    case _ => []
  }

  /** `categories` is an array of categories with truthy id, name, key and color;
      `itemsData` is a non-null object (an array counts) whose every value is an array of
      items with truthy code and gifId; `gifs` is falsy or of type object. */
  predicate Acceptable(data: Json) {
    && data.JObj?
    && IsArray(Prop(data, "categories"))
    && Prop(data, "itemsData").Some?
    && (Prop(data, "itemsData").value.JObj? || Prop(data, "itemsData").value.JArr?)
    && (!TruthyProp(Prop(data, "gifs")) || TypeofObject(Prop(data, "gifs")))
    && (forall c | c in Prop(data, "categories").value.elems :: CategoryAcceptable(c))
    && (forall v | v in EntryValues(Prop(data, "itemsData").value) :: ItemListAcceptable(v))
  }

  lemma {:induction false} CheckAllCategories(cs: seq<Json>)
    ensures CheckAll(cs, CheckCategory) == Accepted <==> forall c | c in cs :: CategoryAcceptable(c)
  {
    assert forall c :: CheckCategory(c) == Accepted <==> CategoryAcceptable(c);
    if CheckAll(cs, CheckCategory) == Accepted {
      forall c | c in cs ensures CategoryAcceptable(c) {
        var i :| 0 <= i < |cs| && cs[i] == c;
      }
    }
  }

  lemma {:induction false} CheckAllItemLists(vs: seq<Json>)
    ensures CheckAll(vs, CheckItemList) == Accepted <==> forall v | v in vs :: ItemListAcceptable(v)
  {
    forall v: Json ensures CheckItemList(v) == Accepted <==> ItemListAcceptable(v) {
      if v.JArr? {
        assert forall it :: CheckItem(it) == Accepted <==> ItemAcceptable(it);
        if CheckItemList(v) == Accepted {
          forall it | it in v.elems ensures ItemAcceptable(it) {
            var i :| 0 <= i < |v.elems| && v.elems[i] == it;
          }
        }
      }
    }
    if CheckAll(vs, CheckItemList) == Accepted {
      forall v | v in vs ensures ItemListAcceptable(v) {
        var i :| 0 <= i < |vs| && vs[i] == v;
      }
    }
  }

  /** The check accepts exactly the documents of the documented shape. */
  lemma ValidateAcceptsIff(data: Json)
    ensures Validate(data) == Accepted <==> Acceptable(data)
  {
    var categories := Prop(data, "categories");
    var itemsData := Prop(data, "itemsData");
    if categories.Some? && categories.value.JArr? {
      CheckAllCategories(categories.value.elems);
    }
    if itemsData.Some? && itemsData.value.JArr? {
      CheckAllItemLists(itemsData.value.elems);
    }
    if itemsData.Some? && itemsData.value.JObj? {
      CheckAllItemLists(Values(itemsData.value.fields));
    }
  }

  // ----- The check on documents that read as typed snapshots -----

  lemma {:induction false} DecodedCategoriesChecked(cs: seq<Json>, cats: seq<Category>)
    requires DecodeCategories(cs) == Some(cats)
    ensures CheckAll(cs, CheckCategory) == Accepted <==> forall c | c in cats :: CategoryOk(c)
    decreases |cs|
  {
    if cs != [] {
      var c := DecodeCategory(cs[0]).value;
      assert CheckCategory(cs[0]) == Accepted <==> CategoryOk(c);
      DecodedCategoriesChecked(cs[1..], cats[1..]);
      assert cats == [c] + cats[1..];
    }
  }

  lemma {:induction false} DecodedItemsChecked(js: seq<Json>, items: seq<Item>)
    requires DecodeItems(js) == Some(items)
    ensures CheckAll(js, CheckItem) == Accepted <==> ItemsOk(items)
    decreases |js|
  {
    if js != [] {
      var it := DecodeItem(js[0]).value;
      assert CheckItem(js[0]) == Accepted <==> ItemOk(it);
      DecodedItemsChecked(js[1..], items[1..]);
      assert items == [it] + items[1..];
    }
  }

  /** An item decoded from `j` is acceptable exactly when its fields are non-empty. */
  lemma ItemCheckedIn(j: Json, it: Item)
    requires ItemIn(j, it)
    ensures ItemAcceptable(j) <==> ItemOk(it)
  {
  }

  lemma ItemListCheckedIn(v: Json, items: seq<Item>)
    requires v.JArr? && ItemsIn(v.elems, items)
    ensures ItemListAcceptable(v) <==> ItemsOk(items)
  {
    forall i | 0 <= i < |items| ensures ItemAcceptable(v.elems[i]) <==> ItemOk(items[i]) {
      ItemCheckedIn(v.elems[i], items[i]);
    }
    if ItemsOk(items) {
      forall x | x in v.elems ensures ItemAcceptable(x) {
        var i :| 0 <= i < |v.elems| && v.elems[i] == x;
      }
    }
  }

  lemma DecodedItemListsChecked(fs: seq<(string, Json)>, e: Entries<seq<Item>>)
    requires DecodeItemLists(fs) == Some(e)
    ensures CheckAll(Values(fs), CheckItemList) == Accepted <==> forall i | 0 <= i < |e| :: ItemsOk(e[i].1)
  {
    assert ItemsDataIn(fs, e);
    CheckAllItemLists(Values(fs));
    forall i | 0 <= i < |e| ensures ItemListAcceptable(Values(fs)[i]) <==> ItemsOk(e[i].1) {
      ItemListCheckedIn(fs[i].1, e[i].1);
    }
    if forall i | 0 <= i < |e| :: ItemsOk(e[i].1) {
      forall v | v in Values(fs) ensures ItemListAcceptable(v) {
        var i :| 0 <= i < |fs| && Values(fs)[i] == v;
      }
    }
  }

  /** On a document that reads as a snapshot, the check accepts exactly when every
      required field of the snapshot is a non-empty string: an empty id or code is
      falsy in JavaScript. */
  lemma ValidateDecoded(j: Json, s: Snapshot)
    requires Decode(j) == Some(s)
    ensures Validate(j) == Accepted <==> WellFormed(s)
  {
    DecodeParts(j, s);
    ValidateParts(j, s);
  }

  /** The check on a document whose categories and item lists decode, in terms of what
      they decode to. */
  lemma ValidateParts(j: Json, s: Snapshot)
    requires j.JObj? && IsArray(Prop(j, "categories"))
    requires Prop(j, "itemsData").Some? && Prop(j, "itemsData").value.JObj?
    requires !TruthyProp(Prop(j, "gifs")) || TypeofObject(Prop(j, "gifs"))
    requires DecodeCategories(Prop(j, "categories").value.elems) == Some(s.categories)
    requires DecodeItemLists(Prop(j, "itemsData").value.fields) == Some(s.itemsData)
    ensures Validate(j) == Accepted <==> WellFormed(s)
  {
    var cs := Prop(j, "categories").value.elems;
    var fs := Prop(j, "itemsData").value.fields;
    ValidateAcceptsIff(j);
    assert EntryValues(Prop(j, "itemsData").value) == Values(fs);
    CheckAllCategories(cs);
    CheckAllItemLists(Values(fs));
    DecodedCategoriesChecked(cs, s.categories);
    DecodedItemListsChecked(fs, s.itemsData);
  }

  /** A snapshot saved as JSON passes the check exactly when it is well formed. */
  lemma ValidateEncoded(s: Snapshot)
    ensures Validate(Encode(s)) == Accepted <==> WellFormed(s)
  {
    DecodeEncode(s);
    ValidateDecoded(Encode(s), s);
  }

  /** `{ categories: [], itemsData: {}, gifs: {} }` is accepted. */
  lemma EmptyDocAccepted()
    ensures Validate(EmptyDoc) == Accepted
  {
    DecodeEmptyDoc();
    ValidateDecoded(EmptyDoc, Empty);
  }

  /** A `null` itemsData passes the `typeof` test and then makes `Object.entries` throw. */
  lemma NullItemsDataThrows()
    ensures Validate(JObj([("categories", JArr([])), ("itemsData", JNull)])) == Threw
  {
    var d := JObj([("categories", JArr([])), ("itemsData", JNull)]);
    assert d.fields[1..] == [("itemsData", JNull)];
    assert "categories" != "itemsData" && "categories" != "gifs" && "itemsData" != "gifs";
    assert Prop(d, "itemsData") == Get(d.fields[1..], "itemsData") == Some(JNull);
    assert Prop(d, "gifs") == Get(d.fields[1..], "gifs") == Get(d.fields[1..][1..], "gifs") == None;
  }

  /** A category whose color is the empty string is rejected. */
  lemma EmptyColorRejected()
    ensures Validate(Encode(Snapshot([Category("c1", "Fun", "F", "")], [], []))) == Rejected
  {
    var s := Snapshot([Category("c1", "Fun", "F", "")], [], []);
    ValidateEncoded(s);
    assert !CategoryOk(s.categories[0]);
    DecodeEncode(s);
    var cs := Prop(Encode(s), "categories").value.elems;
    assert CheckAll(cs, CheckCategory) != Threw;
  }
}
